=== FILE: README.md ===
# 3370Tech website decision rules, modelled in Dafny

The 3370Tech website is a bilingual (Chinese/English) product site. Under its React pages sit
small, pure decision rules. This project models them as Dafny functions over strings, sequences
and optional values, and proves what each one promises:

- **`/api/geo`**: classifies a request as mainland China or not. GET reads CDN country headers
  (EdgeOne, then Vercel, then Cloudflare) and falls back to an IP-geolocation lookup. It also
  extracts the client IP. POST tests client coordinates against a closed outer box minus three
  open exclusion boxes (Hong Kong, Macau, Taiwan).
- **Release lookup** (`lib/github.ts`, `/api/github-version`): picks the latest release or the
  latest stable one, strips a leading `v` from the tag, parses `repo=owner/name`, and maps
  outcomes to 200/400/404/500.
- **`/api/contact`**: an ordered validation cascade (name, email shape, message, captcha token,
  captcha verification) that gates the email send.
- **Locales** (`i18n/routing.ts`, `proxy.ts`, `LanguageSwitcher`): which locales are valid, the
  redirect of `/` by country, locale-prefix detection, and the language toggle with its path
  rewrite.
- **Catalogue** (`lib/products.ts`): lookup by slug and the slug list.
- **Client state machines**: `SmartDownloadButton` (region detection with a timezone fallback,
  CDN and X-Plane.org buttons, dropdown), `ContactForm` (status machine around submit and the
  captcha widget) and `VersionDisplay` (the version-fetch effect).

Network, browser and environment results are passed in as values:

- `Fetch<T> = Ok(data) | NotOk(status) | Threw` for a fetch.
- The captcha provider's parsed `success` field.
- The email service's outcome.
- The timezone.
- Environment secrets as `Option<string>`.

Side effects are returned as explicit fields of each result. These are: which IP the lookup was
asked about, whether `siteverify` was called, whether a send was attempted, which URL was opened
in a new tab, and which request a component made.

JavaScript semantics are written out where they matter:

- Truthiness of `null`/`""`.
- `||` chains.
- `split` on one character, with proved `Join`/`Split` round trips in both directions.
- `trim` over ECMAScript white space.
- `indexOf` and first-occurrence `replace`.
- `.length` in UTF-16 code units, so a character outside the Basic Multilingual Plane counts twice.
- `Array.prototype.find`.

Files: `outcomes.dfy`, `seqs.dfy` and `js_strings.dfy` hold shared helpers. Each other file is
one source file: `geo.dfy`, `github.dfy`, `github_version.dfy`, `contact.dfy`, `routing.dfy`,
`proxy.dfy`, `products.dfy`, `smart_download.dfy`, `contact_form.dfy`, `version_display.dfy` and
`language_switcher.dfy`.

The download button knows only two links, `xplaneOrg` and `cdn`. It has no per-platform links,
OS detection or `{version}` substitution, and it never calls the download counter, so none of
these is modelled. The button detects the region only through `/api/geo`, with a timezone
fallback; it does not use coordinates or the browser language. The version endpoint returns a single release, chosen by
the rules of `lib/github.ts`.

## Model

| member | source | states |
|---|---|---|
| Geo.IsCoordinateInChina | src/app/api/geo/route.ts:4-29 | true exactly when the point is in the closed box [18,54]×[73,136] and strictly inside none of the Hong Kong, Macau and Taiwan boxes |
| Geo.OutsideOuterBoxIsNotMainland | src/app/api/geo/route.ts:11-12 | a point outside the outer box is never mainland; the outer box's four corners are mainland (bounds inclusive) |
| Geo.ExclusionBoxesAreNotMainland | src/app/api/geo/route.ts:16-26 | each exclusion box, edges included, lies inside the outer box; its interior is never mainland; every point on its edge that is not strictly inside another exclusion box is mainland (the exclusion tests are strict) |
| Geo.HeaderCountry | src/app/api/geo/route.ts:39-49 | EdgeOne's header if non-empty, else Vercel's if non-empty, else Cloudflare's; a later header matters only when all earlier ones are null or empty |
| Geo.ClientIp | src/app/api/geo/route.ts:33-36 | trimmed first `x-forwarded-for` entry, else `x-real-ip`, else `cf-connecting-ip`, else `unknown`, skipping empty values; never empty |
| Geo.ForwardedClient | src/app/api/geo/route.ts:33 | present iff `x-forwarded-for` is; never contains a comma; a single-address header gives that address, trimmed |
| Geo.ForwardedClientIsFirstEntry | src/app/api/geo/route.ts:33 | the forwarded client is the trimmed text before the first comma |
| Geo.NeedsLookup | src/app/api/geo/route.ts:52 | the lookup is needed exactly for a missing, empty or `unknown` header country |
| Geo.ResolveCountry | src/app/api/geo/route.ts:52-65 | the lookup's `country_code` replaces the header country only when the header gave nothing or `unknown` and the lookup answered ok; a non-ok or throwing lookup leaves the country unchanged |
| Geo.Get | src/app/api/geo/route.ts:31-75 | the lookup is queried (with the client IP) iff no header resolved the country; `isChina` iff the final country is exactly `CN`; the country reads `unknown` when unresolved; the IP is omitted iff it is `unknown` |
| Geo.HeaderCountryShortCircuits | src/app/api/geo/route.ts:52 | once a header resolved the country, the lookup is not made and its outcome cannot change the response |
| Geo.EdgeOneChinaHeader | src/app/api/geo/route.ts:39-72 | `EO-Client-IPCountry: CN` gives `isChina` and country `CN` without any lookup |
| Geo.FailedLookupWithoutHeaders | src/app/api/geo/route.ts:52-72 | no usable header and a failed lookup give `isChina` false and country `unknown` |
| Geo.CoordinateInChina | src/app/api/geo/route.ts:4-29 | the coordinate test on JSON numbers: an infinite latitude or longitude is never mainland; a finite point is mainland exactly when it is in the region |
| Geo.Echo | src/app/api/geo/route.ts:92-97 | a coordinate is echoed back as itself when finite and as `null` when infinite |
| Geo.Post | src/app/api/geo/route.ts:77-105 | 500 for an unparsable or `null` body; 400 unless both fields are numbers (infinities count as numbers); otherwise the verdict, true only for a finite point in the region, with finite coordinates echoed and infinite ones as `null` |
| Geo.OverflowingCoordinate | src/app/api/geo/route.ts:82-97 | an overflowing latitude (`1e400`) gets a verdict, not a 400: not China, with latitude `null`; Beijing's coordinates are China |
| Github.StableOrFirst | src/lib/github.ts:65-66 | first non-prerelease in list order, else the first release, else nothing; a prerelease is returned only if every release is one |
| Github.GetLatestRelease | src/lib/github.ts:9-77 | with `includePrerelease`, the list head or null; otherwise an ok `/releases/latest` as-is, on 404 the stable-or-first fallback from the list, and null on every other failure |
| Github.PrereleaseIgnoresLatest | src/lib/github.ts:15-33 | with `includePrerelease` the `/releases/latest` answer has no influence |
| Github.FallbackPrereleaseOnlyIfAllAre | src/lib/github.ts:51-66 | after a 404 the result is a prerelease iff every listed release is a prerelease |
| Github.BetaThenStable | src/lib/github.ts:32-33 | for [beta, stable] the list head is the beta and the 404 fallback is the stable release |
| Github.ExtractVersionFromTag | src/lib/github.ts:79-82 | the result is a suffix of the tag at most one character shorter, and shorter exactly when the tag starts with a lowercase `v` |
| Github.ExtractVersionExamples | src/lib/github.ts:81 | `v2.3.1`→`2.3.1`, `2.3.1` unchanged, `vv1`→`v1`, `V1` unchanged |
| GithubVersion.ParseIncludePrerelease | src/app/api/github-version/route.ts:7 | the flag is on only for the exact text `true` |
| GithubVersion.ParseRepo | src/app/api/github-version/route.ts:17-24 | accepts iff the first two `/`-segments are non-empty; they then begin the parameter, followed by `/` or the end |
| GithubVersion.ParseRepoRoundTrip | src/app/api/github-version/route.ts:17-24 | `owner/name` with two non-empty slash-free parts parses back to owner and name |
| GithubVersion.ParseRepoJoin | src/app/api/github-version/route.ts:17-24 | any slash-joined list of slash-free segments whose first two are non-empty parses to those two; later segments are ignored |
| GithubVersion.HandleGet | src/app/api/github-version/route.ts:5-52 | 400 for a missing/empty or malformed repo (no query made), 404 for no release, 500 when the tag is unreadable, else version from the tag, tag echoed, prerelease flag copied |
| GithubVersion.StatusCodes | src/app/api/github-version/route.ts:9-51 | every response is 200, 400, 404 or 500, and 200 only with a body |
| Contact.IsEmailShape | src/app/api/contact/route.ts:53 | the executable test: no white space, exactly one `@` with text before it, and a `.` in the domain that is neither its first nor last character |
| Contact.EmailShapeMatchesPattern | src/app/api/contact/route.ts:53 | that test accepts exactly the language of `^[^\s@]+@[^\s@]+\.[^\s@]+$` |
| Contact.NameValid | src/app/api/contact/route.ts:46 | passes exactly for a present name of two or more characters, or of one character outside the BMP (two UTF-16 code units) |
| Contact.EmailValid | src/app/api/contact/route.ts:53 | accepts exactly the present strings in the language of `^[^\s@]+@[^\s@]+\.[^\s@]+$` |
| Contact.MessageValid | src/app/api/contact/route.ts:60 | passes exactly for a present message of at least ten UTF-16 code units; so ten characters always pass, fewer than five never do, and for BMP text the bound is exactly ten characters |
| Contact.FieldError | src/app/api/contact/route.ts:46-72 | checks name (length ≥ 2), email, message (length ≥ 10) and token presence in order; the first failure is the error; none iff all pass |
| Contact.FirstFailureWins | src/app/api/contact/route.ts:46-72 | once a check fails, no later field can change the reported error |
| Contact.MessageLengthBoundary | src/app/api/contact/route.ts:60 | a message of 9 characters fails and one of 10 passes |
| Contact.NameLengthBoundary | src/app/api/contact/route.ts:46 | a name of 1 character fails and one of 2 passes; a single emoji counts as two code units and passes |
| Contact.VerifyCaptcha | src/app/api/contact/route.ts:13-38 | true iff a secret is configured and the reply's `success` is exactly the boolean `true` |
| Contact.Post | src/app/api/contact/route.ts:40-125 | 500 on an unparsable body; the first field error gives 400 with no captcha call and no send; a failed captcha gives 400 with no send; the send happens iff every check passed; 200 iff it succeeded; 500 otherwise |
| Contact.InvalidFieldSkipsCaptcha | src/app/api/contact/route.ts:46-72 | a failing field check answers 400 with neither a captcha call nor a send, and never with the captcha error |
| Contact.ThrowingCaptchaBlocksSend | src/app/api/contact/route.ts:13-38 | valid fields with a captcha check that throws give 400 "Captcha verification failed" and no send; `siteverify` is called iff a secret is configured |
| Contact.SampleEmailIsValid | src/app/api/contact/route.ts:53 | `a@b.co` has the email shape |
| Routing.IsValidLocale | src/i18n/routing.ts:12-14 | accepts exactly `zh` and `en` |
| Routing.LocaleFacts | src/i18n/routing.ts:4-9 | two distinct locales, the default `en` among them; `ZH`, `zh-CN` and the empty string are rejected |
| Proxy.PathnameHasLocale | src/proxy.ts:11-13 | true iff the path is `/zh` or `/en` or starts with `/zh/` or `/en/` |
| Proxy.HandleRequest | src/proxy.ts:7-33 | only `/` is redirected, to `/zh` iff the EdgeOne-else-Vercel country is exactly `CN`, else `/en` |
| Proxy.RedirectIsFinal | src/proxy.ts:16-27 | the redirect target is a locale path, never `/`, and is not redirected again |
| Proxy.EdgeOneHeaderWins | src/proxy.ts:19-23 | a non-empty EdgeOne header decides alone; no headers means `/en` |
| Proxy.LocalePrefixIsASegment | src/proxy.ts:11-13 | `/zhx`, `/` and `/ZH` carry no locale; `/zh` and `/en/products/a` do |
| Products.GetAllProducts | src/lib/products.ts:4-6 | the catalogue's products unchanged and in order |
| Products.GetProductBySlug | src/lib/products.ts:8-10 | a product with that slug, the first in catalogue order; none iff no product has it |
| Products.GetProductSlugs | src/lib/products.ts:12-14 | one slug per product, same length and order |
| Products.SlugsAreFound | src/lib/products.ts:8-14 | every listed slug is found, and finds its own product unless an earlier one shares the slug |
| SmartDownload.ButtonLocale | src/components/SmartDownloadButton.tsx:38-39 | the current locale if valid, else `en` |
| SmartDownload.IsPlaceholder | src/components/SmartDownloadButton.tsx:47 | the store link is a placeholder iff `TODO_` occurs anywhere in its URL |
| SmartDownload.DetectRegion | src/components/SmartDownloadButton.tsx:50-59 | the server's `isChina` on success; after a throw, true iff the timezone is one of the four mainland timezones |
| SmartDownload.HandleCdnDownload | src/components/SmartDownloadButton.tsx:80-84 | opens the CDN link iff the region is true |
| SmartDownload.HandleXplaneOrgDownload | src/components/SmartDownloadButton.tsx:87-92 | opens the store link iff it is not a placeholder, and closes the dropdown either way |
| SmartDownload.Render | src/components/SmartDownloadButton.tsx:94-187 | a spinner while loading; the CDN button is enabled iff the region is true; the store entry is disabled iff the link is a placeholder; its "coming soon" text shows only in the open dropdown and only for a placeholder; the "X-Plane.org available" note shows iff the link is real |
| SmartDownload.Step | src/components/SmartDownloadButton.tsx:49-157 | detection ends loading; nothing opens while loading; the arrow toggles the dropdown; once loaded, a CDN click runs its handler, opening the CDN link exactly when the region is true; a click on the open dropdown's real store entry runs its handler, opening the store link and closing the dropdown; a click on a closed or placeholder entry does nothing; an outside mousedown closes the dropdown and an inside one changes nothing; a CDN open needs a true region and a store open a non-placeholder link |
| SmartDownload.RunGuards | src/components/SmartDownloadButton.tsx:80-90 | over any event run from a reachable state without a mainland verdict, no CDN link opens and only non-placeholder store links open |
| SmartDownload.PlaceholderNeverOpened | src/components/SmartDownloadButton.tsx:47 | with a placeholder link, no run ever opens the store link |
| SmartDownload.DetectionEndsLoading | src/components/SmartDownloadButton.tsx:60-62 | whatever detection yields, loading ends and the buttons render |
| ContactForm.Edit | src/components/ContactForm.tsx:78-132 | typing sets the edited field only, leaving other fields, token, status and error unchanged; while `loading`, or once the form is replaced after a success, typing changes nothing |
| ContactForm.RequestBody | src/components/ContactForm.tsx:34-45 | the posted JSON carries the three texts as typed (never `null`) and the stored token; with a token the server never answers "Captcha verification required" |
| ContactForm.HandleSubmit | src/components/ContactForm.tsx:22-46 | without a token: error status, captcha-required message, no request; with one: `loading`, error cleared, the form posted with its token |
| ContactForm.Submit | src/components/ContactForm.tsx:78-156 | nothing happens while loading (disabled button and inputs), after a success (form replaced), or while the browser's own validation fails (`required`, `minLength` 2 and 10 in code units, `type="email"`); otherwise the handler runs; a submit that posts leaves the form loading, and the server can then reject its fields only for the e-mail |
| ContactForm.EmptyFormIsNotSubmitted | src/components/ContactForm.tsx:88-130 | the untouched form is never submitted, with or without a captcha token |
| ContactForm.NoSecondRequestWhileLoading | src/components/ContactForm.tsx:31-156 | an enabled form that passes the browser's checks and holds a token is posted, and after that further submits and typing change nothing until the response |
| ContactForm.HandleResponse | src/components/ContactForm.tsx:48-63 | ok: success, with fields and token cleared; non-ok: the server's error or the generic one; thrown: the generic error; only ok clears fields |
| ContactForm.HandleCaptchaVerify | src/components/ContactForm.tsx:66-72 | stores the token, and returns to `idle` only from the captcha-required error |
| ContactForm.HandleCaptchaExpire | src/components/ContactForm.tsx:74-76 | the token is gone, while fields, status and error message are kept |
| ContactForm.ExpiredCaptchaBlocksSubmit | src/components/ContactForm.tsx:25-29 | after expiry, submit sends nothing and asks for the captcha |
| ContactForm.FormRequestsCarryToken | src/components/ContactForm.tsx:25-46 | the server never answers a form request with "Captcha verification required" |
| ContactForm.VerifyThenSubmit | src/components/ContactForm.tsx:25-72 | on a form the browser lets through, a submit without a token shows the captcha-required error, and verifying then resubmitting posts the form |
| VersionDisplay.InitialState | src/components/VersionDisplay.tsx:14-21 | the version starts as the given default, or `latest` when none is given |
| VersionDisplay.FlagText | src/components/VersionDisplay.tsx:30 | the flag is sent as `true` or `false`, and the route reads it back as the same flag |
| VersionDisplay.StartFetch | src/components/VersionDisplay.tsx:23-31 | fetches iff a repository is set, with loading on, and sends a flag text the route parses back to the current flag |
| VersionDisplay.FinishFetch | src/components/VersionDisplay.tsx:33-44 | loading ends; ok sets the version and sets the prerelease flag iff the payload says true; failure keeps both |
| VersionDisplay.SetIncludePrerelease | src/components/VersionDisplay.tsx:48-81 | changing the checkbox re-fetches with the new flag |
| VersionDisplay.Shown | src/components/VersionDisplay.tsx:50-62 | `...` while loading with a repository, else the version |
| VersionDisplay.NoRepositoryKeepsDefault | src/components/VersionDisplay.tsx:24-55 | with no repository there is no fetch and the default stays shown |
| VersionDisplay.FailedFetchKeepsVersion | src/components/VersionDisplay.tsx:37-44 | a failed fetch shows `...` during and the old version after |
| LanguageSwitcher.ToggleLocale | src/components/LanguageSwitcher.tsx:25 | gives `en` iff the locale is `zh`, always a valid locale, and a different one for valid input |
| LanguageSwitcher.ToggleTwice | src/components/LanguageSwitcher.tsx:25 | for `zh` and `en`, toggling twice is the identity |
| LanguageSwitcher.SwitchPath | src/components/LanguageSwitcher.tsx:26 | a path without `/`+locale is unchanged; a path starting with it has that prefix swapped |
| LanguageSwitcher.SwitchLanguage | src/components/LanguageSwitcher.tsx:21-38 | ignored while switching; otherwise marks switching and navigates to the rewritten path, in the browser with the fade class after 300 ms, elsewhere at once |
| LanguageSwitcher.BothBranchesAgree | src/components/LanguageSwitcher.tsx:29-37 | both branches navigate to the same path; only the browser branch fades the page and delays the navigation by 300 ms |
| LanguageSwitcher.PathnameChanged | src/components/LanguageSwitcher.tsx:16-19 | a path change always removes the fade class and resets `isSwitching` |
| LanguageSwitcher.SwitchTwiceRestoresPath | src/components/LanguageSwitcher.tsx:21-38 | switching twice from a locale-prefixed path returns to it |
| LanguageSwitcher.SwitchPathFirstOnly | src/components/LanguageSwitcher.tsx:26 | only the first occurrence is rewritten: `/zh/zh` becomes `/en/zh` |
| Seqs.FindIndex | src/lib/github.ts:65 | the index of the first element satisfying the test; none iff no element does |
| Seqs.Find | src/lib/products.ts:9 | `Array.prototype.find`: an element of the list satisfying the test, with none before it; `undefined` iff none does |
| JsStrings.IndexOf | src/components/LanguageSwitcher.tsx:26 | `indexOf`: an occurrence of the pattern with none earlier; `-1` iff the pattern occurs nowhere |
| JsStrings.Contains | src/components/SmartDownloadButton.tsx:47 | `includes`: true iff the pattern occurs somewhere |
| JsStrings.Trim | src/app/api/geo/route.ts:33 | removes only ECMAScript white space at both ends; empty iff the input is all white space |
| JsStrings.Split | src/app/api/github-version/route.ts:17 | one-character `split`: at least one piece (`""` gives `[""]`), and no piece contains the separator |
| JsStrings.JoinSplit | src/app/api/github-version/route.ts:17 | joining the pieces of a split gives the input back |
| JsStrings.SplitJoin | src/app/api/github-version/route.ts:17 | splitting joined separator-free pieces gives the pieces back |
| JsStrings.ReplaceFirst | src/components/LanguageSwitcher.tsx:26 | unchanged when the pattern does not occur; a pattern that starts the string has that prefix swapped |
| JsStrings.ReplaceFirstAt | src/components/LanguageSwitcher.tsx:26 | at the first occurrence of the pattern, and only there, the replacement is spliced in |
| JsStrings.JsLength | src/app/api/contact/route.ts:46-60 | `.length` in UTF-16 code units: 0 for the empty string, 1 for a BMP character and 2 for one outside it; between the character count and twice it, equal to it for BMP text |
| JsStrings.JsLengthAppend | src/app/api/contact/route.ts:46-60 | lengths add up under concatenation, which with the one-character case fixes `.length` of every string |

## Left out

- Real network calls are left out: the geolocation service, the release API, the captcha provider and the email service. They appear only as outcome values, and caching (`revalidate: 3600`) is framework behaviour.
- The email's subject and body (HTML and text, newline-to-`<br>`), the sender and recipient addresses, and `CONTACT_EMAIL` are left out. They are presentation and configuration.
- The language switcher's timer is left out: its 300 ms delay is a number in the result, not a scheduled event. The fade's visual effect, hover state and all other styling are left out too.
- Every path other than `/` is handed to the i18n middleware, which is treated as opaque (`Delegate`). The middleware matcher is left out too, and the catalogue JSON file is a parameter.
- The purely presentational components and pages are left out: product detail, product sections, header, footer, social links, page wrapper, layouts and the Tailwind configuration.
- The download-count endpoint (`/api/download-count/[slug]`: GET reads a product's count, POST increments it and writes the catalogue file back) is left out. No component of the core calls it, and it is file I/O.
- Geo.Post: finite JSON numbers are modelled as exact reals, so IEEE-754 rounding (of `22.9` and of the input) is not modelled. Overflowing literals such as `1e400` parse to infinities; these are modelled, and JSON text cannot express NaN.
- Contact.Post: fields are `Option<string>`, so non-string JSON values are not modelled. A value without a numeric `length` property (number, boolean, plain object) has `.length` `undefined`, and `undefined < 2` is false, so it passes the length check. An array is checked by its element count instead: `["a","b"]` passes the name check and `["a"]` fails it. A non-string `message` that passed then throws at `message.replace` once the captcha has been verified, giving 500 "Internal server error". `email` is converted to a string by the regular-expression test.
- SmartDownload.DetectRegion: the server's `isChina` is taken as an optional boolean. Other JSON values, which the component would judge by truthiness, are not modelled.
- VersionDisplay.FinishFetch: two fetches in flight completing out of order is not modelled. Neither is unmounting.
- ContactForm.HandleResponse: a non-ok reply whose body is not JSON is folded into the thrown case, which is where the code ends up.
- SmartDownload.Step: a click on the disabled placeholder entry is not delivered, so the dropdown stays open. The handler itself, modelled by `HandleXplaneOrgDownload`, always closes it.
- ContactForm.Submit: the browser's verdict on the e-mail text for `type="email"` is a boolean parameter, since the HTML rule is not the server's pattern. The browser's value sanitisation (stripping line breaks and surrounding white space from the e-mail) is not modelled. Neither is the detail that `minLength` is enforced only on text the user has typed.
- ContactForm.HandleCaptchaVerify and ContactForm.HandleCaptchaExpire may fire in any state. The widget is rendered only when a site key is configured, and it unmounts once the form succeeds; that is not modelled.

=== FILE: contact.dfy ===
/** The `/api/contact` endpoint: validates a submission in a fixed order, verifies the captcha
    with the captcha provider, and only then sends the email. */
module Contact {
  import opened Outcomes
  import opened JsStrings

  // ---------------------------------------------------------------- email shape

  /** A character of the class `[^\s@]`. */
  predicate EmailChar(c: char) {
    !IsWhitespace(c) && c != '@'
  }

  predicate AllEmailChars(t: string) {
    forall k :: 0 <= k < |t| ==> EmailChar(t[k])
  }

  /** The language of `^[^\s@]+@[^\s@]+\.[^\s@]+$`: three non-empty runs of `[^\s@]`,
      the first two separated by `@` and the last two by `.`. */
  ghost predicate MatchesEmailPattern(s: string) {
    exists i, j :: 0 < i && i + 1 < j && j + 1 < |s| && s[i] == '@' && s[j] == '.'
      && AllEmailChars(s[..i]) && AllEmailChars(s[i + 1..j]) && AllEmailChars(s[j + 1..])
  }

  /** The email test as the handler needs it: no white space, exactly one `@` with something
      before it, and a `.` in the domain that is neither its first nor its last character. */
  predicate IsEmailShape(s: string) {
    && (forall k :: 0 <= k < |s| ==> !IsWhitespace(s[k]))
    && match IndexOf(s, "@")
       case None => false
       case Some(i) =>
         var domain := s[i + 1..];
         0 < i && '@' !in domain && |domain| >= 3 && '.' in domain[1..|domain| - 1]
  }

  lemma OccursAtChar(s: string, c: char, k: int)
    requires 0 <= k < |s|
    ensures OccursAt(s, [c], k) <==> s[k] == c
  {
    if s[k] == c { assert s[k..k + 1] == [c]; }
    if OccursAt(s, [c], k) { assert s[k..k + 1][0] == s[k]; }
  }

  /** The executable test accepts exactly the strings the regular expression matches. */
  lemma EmailShapeMatchesPattern(s: string)
    ensures IsEmailShape(s) <==> MatchesEmailPattern(s)
  {
    if IsEmailShape(s) {
      EmailShapeSound(s);
    }
    if MatchesEmailPattern(s) {
      var i, j :| 0 < i && i + 1 < j && j + 1 < |s| && s[i] == '@' && s[j] == '.'
        && AllEmailChars(s[..i]) && AllEmailChars(s[i + 1..j]) && AllEmailChars(s[j + 1..]);
      EmailShapeComplete(s, i, j);
    }
  }

  lemma EmailShapeSound(s: string)
    requires IsEmailShape(s)
    ensures MatchesEmailPattern(s)
  {
    var i := IndexOf(s, "@").value;
    var domain := s[i + 1..];
    var mid := domain[1..|domain| - 1];
    var m :| 0 <= m < |mid| && mid[m] == '.';
    var j := i + 2 + m;
    assert s[j] == '.';
    assert s[i] == '@' by { assert s[i..i + 1] == "@"; assert s[i..i + 1][0] == s[i]; }
    forall k | 0 <= k < i ensures EmailChar(s[k]) {
      OccursAtChar(s, '@', k);
    }
    assert AllEmailChars(s[..i]);
    forall k | i + 1 <= k < |s| ensures EmailChar(s[k]) {
      assert s[k] == domain[k - i - 1];
    }
    assert AllEmailChars(s[i + 1..j]);
    assert AllEmailChars(s[j + 1..]);
  }

  lemma EmailShapeComplete(s: string, i: int, j: int)
    requires 0 < i && i + 1 < j && j + 1 < |s| && s[i] == '@' && s[j] == '.'
    requires AllEmailChars(s[..i]) && AllEmailChars(s[i + 1..j]) && AllEmailChars(s[j + 1..])
    ensures IsEmailShape(s)
  {
    forall k | 0 <= k < |s| ensures !IsWhitespace(s[k]) && (k != i ==> s[k] != '@') {
      if k < i { assert s[k] == s[..i][k]; }
      else if i < k < j { assert s[k] == s[i + 1..j][k - i - 1]; }
      else if j < k { assert s[k] == s[j + 1..][k - j - 1]; }
    }
    OccursAtChar(s, '@', i);
    var i' := IndexOf(s, "@").value;
    OccursAtChar(s, '@', i');
    assert i' == i;
    var domain := s[i + 1..];
    assert '@' !in domain by {
      forall k | 0 <= k < |domain| ensures domain[k] != '@' { assert domain[k] == s[i + 1 + k]; }
    }
    assert domain[1..|domain| - 1][j - i - 2] == '.';
  }

  // ---------------------------------------------------------------- validation

  /** The parsed request body; a field is `None` when absent or `null`. */
  datatype ContactBody = ContactBody(name: Option<string>, email: Option<string>, message: Option<string>, captchaToken: Option<string>)

  const NameError := "Name must be at least 2 characters"
  const EmailError := "Invalid email format"
  const MessageError := "Message must be at least 10 characters"
  const CaptchaRequired := "Captcha verification required"
  const CaptchaFailed := "Captcha verification failed"
  const SendFailed := "Failed to send email"
  const InternalError := "Internal server error"

  /** The name check. Lengths are JavaScript lengths (UTF-16 code units): two characters always
      pass, and one character passes only if it lies outside the Basic Multilingual Plane. */
  function NameValid(name: Option<string>): (ok: bool)
    ensures ok <==> name.Some? && (|name.value| >= 2 || (|name.value| == 1 && name.value[0] as int >= 0x1_0000))
    ensures ok <==> name.Some? && JsLength(name.value) >= 2
    ensures ok ==> name.Some? && |name.value| >= 1
    ensures name.Some? && |name.value| >= 2 ==> ok
    ensures name.Some? && AllBmp(name.value) ==> (ok <==> |name.value| >= 2)
  {
    Truthy(name) && JsLength(name.value) >= 2
  }

  /** The email check accepts exactly the strings of the pattern's language. */
  function EmailValid(email: Option<string>): (ok: bool)
    ensures ok <==> email.Some? && MatchesEmailPattern(email.value)
  {
    if email.Some? then EmailShapeMatchesPattern(email.value); Truthy(email) && IsEmailShape(email.value)
    else false
  }

  /** The message check: ten characters always pass, fewer than five never do, and for text
      inside the Basic Multilingual Plane the bound is exactly ten characters. */
  function MessageValid(message: Option<string>): (ok: bool)
    ensures ok <==> message.Some? && JsLength(message.value) >= 10
    ensures ok ==> message.Some? && |message.value| >= 5
    ensures message.Some? && |message.value| >= 10 ==> ok
    ensures message.Some? && AllBmp(message.value) ==> (ok <==> |message.value| >= 10)
  {
    Truthy(message) && JsLength(message.value) >= 10
  }

  /** The first failing field check, in the order name, email, message, captcha token. */
  function FieldError(b: ContactBody): (e: Option<string>)
    ensures e.None? <==> NameValid(b.name) && EmailValid(b.email) && MessageValid(b.message) && Truthy(b.captchaToken)
    ensures !NameValid(b.name) ==> e == Some(NameError)
    ensures NameValid(b.name) && !EmailValid(b.email) ==> e == Some(EmailError)
    ensures NameValid(b.name) && EmailValid(b.email) && !MessageValid(b.message) ==> e == Some(MessageError)
    ensures NameValid(b.name) && EmailValid(b.email) && MessageValid(b.message) && !Truthy(b.captchaToken) ==>
      e == Some(CaptchaRequired)
  {
    if !Truthy(b.name) || JsLength(b.name.value) < 2 then Some(NameError)
    else if !Truthy(b.email) || !IsEmailShape(b.email.value) then Some(EmailError)
    else if !Truthy(b.message) || JsLength(b.message.value) < 10 then Some(MessageError)
    else if !Truthy(b.captchaToken) then Some(CaptchaRequired)
    else None
  }

  /** Once a check fails, later fields cannot change the error. */
  lemma FirstFailureWins(b: ContactBody, email: Option<string>, message: Option<string>, token: Option<string>)
    ensures !NameValid(b.name) ==> FieldError(b.(email := email, message := message, captchaToken := token)) == Some(NameError)
    ensures NameValid(b.name) && !EmailValid(b.email) ==>
      FieldError(b.(message := message, captchaToken := token)) == Some(EmailError)
    ensures NameValid(b.name) && EmailValid(b.email) && !MessageValid(b.message) ==>
      FieldError(b.(captchaToken := token)) == Some(MessageError)
  {
  }

  /** Message boundary: 9 characters fail and 10 pass. */
  lemma MessageLengthBoundary()
    ensures !MessageValid(Some("123456789")) && MessageValid(Some("1234567890"))
  {
    assert JsLength("123456789") == 9 by { assert AllBmp("123456789"); }
  }

  /** Name boundary: 1 character fails and 2 pass, but a single character outside the Basic
      Multilingual Plane counts twice and passes. */
  lemma NameLengthBoundary()
    ensures !NameValid(Some("a")) && NameValid(Some("ab")) && NameValid(Some("\U{1F600}"))
  {
  }

  // ---------------------------------------------------------------- captcha and send

  /** What the captcha provider's `siteverify` call yields: the parsed body's `success` field
      (`None` when absent), or a thrown error (network or unparsable body). The HTTP status
      is not inspected. */
  datatype SiteverifyOutcome = Answered(success: Option<Json>) | VerifyThrew

  /** `verifyCaptcha`: true only with a configured secret and a reply whose `success` is exactly
      the boolean `true`. */
  function VerifyCaptcha(secret: Option<string>, outcome: SiteverifyOutcome): (ok: bool)
    ensures ok <==> Truthy(secret) && outcome == Answered(Some(JBool(true)))
  {
    if !Truthy(secret) then false
    else
      match outcome
      case VerifyThrew => false
      case Answered(success) => success == Some(JBool(true))
  }

  /** What the email service's `send` yields. */
  datatype SendOutcome = Delivered | SendError | SendThrew

  datatype ContactReply = Accepted | Rejected(error: string)

  /** A POST's response, with the side effects it caused: whether `siteverify` was called and
      whether an email send was attempted. */
  datatype ContactResult = ContactResult(status: int, reply: ContactReply, siteverifyCalled: bool, sendAttempted: bool)

  /** POST `/api/contact`. `body` is `None` when the request body is not JSON (or is `null`). */
  function Post(body: Option<ContactBody>, secret: Option<string>, siteverify: SiteverifyOutcome, send: SendOutcome): (r: ContactResult)
    ensures body.None? ==> r == ContactResult(500, Rejected(InternalError), false, false)
    ensures body.Some? && FieldError(body.value).Some? ==>
      r == ContactResult(400, Rejected(FieldError(body.value).value), false, false)
    ensures r.siteverifyCalled <==> body.Some? && FieldError(body.value).None? && Truthy(secret)
    ensures r.sendAttempted <==> body.Some? && FieldError(body.value).None? && VerifyCaptcha(secret, siteverify)
    ensures r.status == 200 <==> r.sendAttempted && send == Delivered
    ensures r.status == 200 <==> r.reply == Accepted
    ensures r.sendAttempted && send != Delivered ==>
      r.status == 500 && r.reply == Rejected(if send == SendError then SendFailed else InternalError)
    ensures body.Some? && FieldError(body.value).None? && !VerifyCaptcha(secret, siteverify) ==>
      r.status == 400 && r.reply == Rejected(CaptchaFailed)
  {
    match body
    case None => ContactResult(500, Rejected(InternalError), false, false)
    case Some(b) =>
      match FieldError(b)
      case Some(e) => ContactResult(400, Rejected(e), false, false)
      case None =>
        var called := Truthy(secret);
        if !VerifyCaptcha(secret, siteverify) then ContactResult(400, Rejected(CaptchaFailed), called, false)
        else
          match send
          case Delivered => ContactResult(200, Accepted, called, true)
          case SendError => ContactResult(500, Rejected(SendFailed), called, true)
          case SendThrew => ContactResult(500, Rejected(InternalError), called, true)
  }

  /** A failing field check answers 400 before the captcha is asked or an email is sent. */
  lemma InvalidFieldSkipsCaptcha(b: ContactBody, secret: Option<string>, siteverify: SiteverifyOutcome, send: SendOutcome)
    requires FieldError(b).Some?
    ensures var r := Post(Some(b), secret, siteverify, send);
      r.status == 400 && !r.siteverifyCalled && !r.sendAttempted && r.reply != Rejected(CaptchaFailed)
  {
  }

  /** With valid fields and a captcha check that throws, the answer is 400 and no email is sent;
      `siteverify` was still called if a secret is configured. */
  lemma ThrowingCaptchaBlocksSend(b: ContactBody, secret: Option<string>, send: SendOutcome)
    requires FieldError(b).None?
    ensures var r := Post(Some(b), secret, VerifyThrew, send);
      r == ContactResult(400, Rejected(CaptchaFailed), Truthy(secret), false)
  {
  }

  /** `a@b.co` has the email shape. */
  lemma SampleEmailIsValid()
    ensures IsEmailShape("a@b.co")
  {
    var s := "a@b.co";
    assert s[..1] == ['a'];
    assert s[2..3] == ['b'];
    assert s[4..] == ['c', 'o'];
    EmailShapeComplete(s, 1, 3);
  }
}

=== FILE: contact_form.dfy ===
/** The contact form's client state machine: submit (guarded by the captcha token), the
    response handling, and the captcha widget's verify and expire callbacks. */
module ContactForm {
  import opened Outcomes
  import opened JsStrings
  import Contact

  datatype FormStatus = Idle | Loading | Succeeded | Errored

  datatype FormState = FormState(
    name: string,
    email: string,
    message: string,
    captchaToken: Option<string>,
    status: FormStatus,
    errorMessage: string)

  /** The two translated messages the form shows. */
  datatype Messages = Messages(captchaRequired: string, generic: string)

  const Initial := FormState("", "", "", None, Idle, "")

  /** The form takes input only while it is on screen and idle: the inputs and the submit
      button are disabled while a request is in flight, and after a success the form is replaced
      by the thank-you message. */
  predicate InputsEnabled(s: FormState) {
    s.status != Loading && s.status != Succeeded
  }

  /** The three text inputs. */
  datatype Field = NameField | EmailField | MessageField

  function FieldValue(s: FormState, f: Field): string {
    match f
    case NameField => s.name
    case EmailField => s.email
    case MessageField => s.message
  }

  /** Typing into a field: the field takes the new text and no other part of the state changes;
      while a request is in flight the disabled inputs take no input at all. */
  function Edit(s: FormState, f: Field, v: string): (r: FormState)
    ensures InputsEnabled(s) ==> FieldValue(r, f) == v
    ensures !InputsEnabled(s) ==> r == s
    ensures forall g :: g != f ==> FieldValue(r, g) == FieldValue(s, g)
    ensures r.captchaToken == s.captchaToken && r.status == s.status && r.errorMessage == s.errorMessage
  {
    if !InputsEnabled(s) then s
    else
      match f
      case NameField => s.(name := v)
      case EmailField => s.(email := v)
      case MessageField => s.(message := v)
  }

  /** The JSON body the form posts: the three texts as typed (never `null`) and the stored token.
      With a token, the server cannot answer it with "Captcha verification required". */
  function RequestBody(s: FormState): (b: Contact.ContactBody)
    ensures b.name == Some(s.name) && b.email == Some(s.email) && b.message == Some(s.message)
    ensures b.captchaToken == s.captchaToken
    ensures Truthy(s.captchaToken) ==> Contact.FieldError(b) != Some(Contact.CaptchaRequired)
  {
    Contact.ContactBody(Some(s.name), Some(s.email), Some(s.message), s.captchaToken)
  }

  datatype SubmitStep = SubmitStep(next: FormState, request: Option<Contact.ContactBody>)

  /** `handleSubmit`, first half: without a token, show the captcha-required error and send
      nothing; otherwise enter `loading`, clear the error and post the form. */
  function HandleSubmit(s: FormState, m: Messages): (r: SubmitStep)
    ensures r.request.Some? <==> Truthy(s.captchaToken)
    ensures !Truthy(s.captchaToken) ==> r.next == s.(status := Errored, errorMessage := m.captchaRequired)
    ensures Truthy(s.captchaToken) ==> r.next == s.(status := Loading, errorMessage := "")
    ensures r.request.Some? ==> r.request.value == RequestBody(s) && Truthy(r.request.value.captchaToken)
  {
    if !Truthy(s.captchaToken) then SubmitStep(s.(errorMessage := m.captchaRequired, status := Errored), None)
    else SubmitStep(s.(status := Loading, errorMessage := ""), Some(RequestBody(s)))
  }

  /** The browser's own constraint validation of the form (`required` on all three fields,
      `minLength` 2 and 10 counted in UTF-16 code units, `type="email"`): while it fails, the
      browser reports the first invalid field and does not fire `submit`. The browser's verdict on
      the current e-mail text is the parameter `emailAccepted`, since the HTML rule for
      `type="email"` is not the server's pattern. */
  predicate NativelyValid(s: FormState, emailAccepted: bool) {
    && s.name != "" && JsLength(s.name) >= 2
    && s.email != "" && emailAccepted
    && s.message != "" && JsLength(s.message) >= 10
  }

  /** A submit as the browser delivers it. The disabled button (while loading), the missing form
      (after a success) and a form failing its own validation cannot submit, so nothing happens;
      otherwise the handler runs. A request that goes out always passes the server's name,
      message and token checks, so the server can reject its fields only for the e-mail. */
  function Submit(s: FormState, m: Messages, emailAccepted: bool): (r: SubmitStep)
    ensures !InputsEnabled(s) || !NativelyValid(s, emailAccepted) ==> r == SubmitStep(s, None)
    ensures InputsEnabled(s) && NativelyValid(s, emailAccepted) ==> r == HandleSubmit(s, m)
    ensures r.request.Some? ==> r.next.status == Loading && !InputsEnabled(r.next)
    ensures r.request.Some? ==> Contact.FieldError(r.request.value) == None || Contact.FieldError(r.request.value) == Some(Contact.EmailError)
  {
    if !InputsEnabled(s) || !NativelyValid(s, emailAccepted) then SubmitStep(s, None) else HandleSubmit(s, m)
  }

  /** The untouched form cannot be submitted: the browser blocks it before the captcha guard, with
      or without a token. */
  lemma EmptyFormIsNotSubmitted(m: Messages, emailAccepted: bool, token: string)
    ensures Submit(Initial, m, emailAccepted) == SubmitStep(Initial, None)
    ensures Submit(Initial.(captchaToken := Some(token)), m, emailAccepted).request.None?
  {
  }

  /** A request in flight cannot be doubled: after a submit that posts (an enabled, valid form
      with a token), further submits and typing change nothing until the response arrives. */
  lemma NoSecondRequestWhileLoading(s: FormState, m: Messages, emailAccepted: bool, f: Field, v: string)
    requires InputsEnabled(s) && NativelyValid(s, emailAccepted) && Truthy(s.captchaToken)
    ensures Submit(s, m, emailAccepted).request.Some?
    ensures var s1 := Submit(s, m, emailAccepted).next;
      Submit(s1, m, emailAccepted) == SubmitStep(s1, None) && Edit(s1, f, v) == s1
  {
  }

  /** What the post returned: ok, non-ok with the body's `error` field (`None` when absent), or a
      thrown error (network, or a non-ok body that is not JSON). */
  datatype PostResponse = PostOk | PostNotOk(error: Option<string>) | PostThrew

  /** `handleSubmit`, second half. */
  function HandleResponse(s: FormState, m: Messages, resp: PostResponse): (r: FormState)
    ensures resp.PostOk? ==> r == s.(status := Succeeded, name := "", email := "", message := "", captchaToken := None)
    ensures resp.PostNotOk? ==> r.status == Errored && r.errorMessage == Or(resp.error, Some(m.generic)).value
    ensures resp.PostNotOk? && Truthy(resp.error) ==> r.errorMessage == resp.error.value
    ensures resp.PostThrew? ==> r == s.(status := Errored, errorMessage := m.generic)
    ensures !resp.PostOk? ==> r.name == s.name && r.email == s.email && r.message == s.message && r.captchaToken == s.captchaToken
    ensures r.status != Loading
  {
    match resp
    case PostOk => s.(status := Succeeded, name := "", email := "", message := "", captchaToken := None)
    case PostNotOk(error) => s.(errorMessage := Or(error, Some(m.generic)).value, status := Errored)
    case PostThrew => s.(errorMessage := m.generic, status := Errored)
  }

  /** `handleCaptchaVerify`: store the token; clear the error only if it is the captcha-required one. */
  function HandleCaptchaVerify(s: FormState, m: Messages, token: string): (r: FormState)
    ensures r.captchaToken == Some(token)
    ensures s.status == Errored && s.errorMessage == m.captchaRequired ==> r.status == Idle && r.errorMessage == ""
    ensures !(s.status == Errored && s.errorMessage == m.captchaRequired) ==> r == s.(captchaToken := Some(token))
    ensures r.name == s.name && r.email == s.email && r.message == s.message
  {
    var s' := s.(captchaToken := Some(token));
    if s.status == Errored && s.errorMessage == m.captchaRequired then s'.(status := Idle, errorMessage := "")
    else s'
  }

  /** `handleCaptchaExpire`: forget the token, and nothing else. */
  function HandleCaptchaExpire(s: FormState): (r: FormState)
    ensures !Truthy(r.captchaToken)
    ensures forall f :: FieldValue(r, f) == FieldValue(s, f)
    ensures r.status == s.status && r.errorMessage == s.errorMessage
  {
    s.(captchaToken := None)
  }

  /** After expiry a submit sends nothing and asks for the captcha again. */
  lemma ExpiredCaptchaBlocksSubmit(s: FormState, m: Messages)
    ensures HandleSubmit(HandleCaptchaExpire(s), m).request.None?
    ensures HandleSubmit(HandleCaptchaExpire(s), m).next.errorMessage == m.captchaRequired
  {
  }

  /** A request the form sends always carries a token, so the server never answers it with
      "Captcha verification required". */
  lemma FormRequestsCarryToken(s: FormState, m: Messages)
    requires HandleSubmit(s, m).request.Some?
    ensures Contact.FieldError(HandleSubmit(s, m).request.value) != Some(Contact.CaptchaRequired)
  {
  }

  /** Recovering from the captcha-required error: on a form the browser lets through, a submit
      without a token asks for the captcha, and verifying then submitting posts the form. */
  lemma VerifyThenSubmit(s: FormState, m: Messages, emailAccepted: bool, token: string)
    requires token != "" && InputsEnabled(s) && NativelyValid(s, emailAccepted)
    ensures var s0 := Submit(s.(captchaToken := None), m, emailAccepted).next;
      var s1 := HandleCaptchaVerify(s0, m, token);
      && s0.errorMessage == m.captchaRequired
      && s1.status == Idle && Submit(s1, m, emailAccepted).request.Some?
      && Submit(s1, m, emailAccepted).next.status == Loading
  {
  }
}

=== FILE: geo.dfy ===
/** The `/api/geo` endpoint: classifies a request as coming from mainland China.
    GET reads CDN country headers and falls back to an IP-geolocation lookup; POST classifies
    client-supplied coordinates against a bounding box with three exclusion boxes. */
module Geo {
  import opened Outcomes
  import opened JsStrings

  // ---------------------------------------------------------------- coordinates

  /** An axis-aligned latitude/longitude rectangle, in degrees. */
  datatype Box = Box(latMin: real, latMax: real, lonMin: real, lonMax: real)

  /** The point lies in the box, edges included. */
  predicate InClosed(b: Box, lat: real, lon: real) {
    b.latMin <= lat <= b.latMax && b.lonMin <= lon <= b.lonMax
  }

  /** The point lies strictly inside the box, edges excluded. */
  predicate InOpen(b: Box, lat: real, lon: real) {
    b.latMin < lat < b.latMax && b.lonMin < lon < b.lonMax
  }

  const MainlandBounds := Box(18.0, 54.0, 73.0, 136.0)
  const HongKong := Box(21.5, 22.9, 113.8, 114.6)
  const Macau := Box(22.0, 22.4, 113.3, 113.7)
  const Taiwan := Box(21.8, 25.3, 120.0, 121.9)
  const Exclusions: seq<Box> := [HongKong, Macau, Taiwan]

  /** Reference definition of the region: the closed outer box minus the open exclusion boxes. */
  predicate InMainlandRegion(lat: real, lon: real) {
    InClosed(MainlandBounds, lat, lon) && forall k :: 0 <= k < |Exclusions| ==> !InOpen(Exclusions[k], lat, lon)
  }

  /** `isCoordinateInChina`: the early-return cascade of the handler. */
  function IsCoordinateInChina(latitude: real, longitude: real): (r: bool)
    ensures r <==> InMainlandRegion(latitude, longitude)
  {
    if latitude < 18.0 || latitude > 54.0 then false
    else if longitude < 73.0 || longitude > 136.0 then false
    else if latitude > 21.5 && latitude < 22.9 && longitude > 113.8 && longitude < 114.6 then
      assert InOpen(Exclusions[0], latitude, longitude); false
    else if latitude > 22.0 && latitude < 22.4 && longitude > 113.3 && longitude < 113.7 then
      assert InOpen(Exclusions[1], latitude, longitude); false
    else if latitude > 21.8 && latitude < 25.3 && longitude > 120.0 && longitude < 121.9 then
      assert InOpen(Exclusions[2], latitude, longitude); false
    else true
  }

  /** Outside the outer box nothing is mainland; the outer box's own edges are inside. */
  lemma OutsideOuterBoxIsNotMainland(lat: real, lon: real)
    ensures !InClosed(MainlandBounds, lat, lon) ==> !IsCoordinateInChina(lat, lon)
    ensures IsCoordinateInChina(18.0, 73.0) && IsCoordinateInChina(54.0, 136.0)
    ensures IsCoordinateInChina(18.0, 136.0) && IsCoordinateInChina(54.0, 73.0)
  {
  }

  /** Every exclusion box lies inside the outer box, yet its interior is never mainland,
      while every point of its edge outside the other boxes' interiors is (the exclusion tests
      are strict). */
  lemma ExclusionBoxesAreNotMainland(k: nat, lat: real, lon: real)
    requires k < |Exclusions|
    ensures forall la: real, lo: real :: InClosed(Exclusions[k], la, lo) ==> InClosed(MainlandBounds, la, lo)
    ensures InOpen(Exclusions[k], lat, lon) ==> !IsCoordinateInChina(lat, lon)
    ensures (&& InClosed(Exclusions[k], lat, lon) && !InOpen(Exclusions[k], lat, lon)
             && (forall m :: 0 <= m < |Exclusions| && m != k ==> !InOpen(Exclusions[m], lat, lon)))
            ==> IsCoordinateInChina(lat, lon)
    ensures IsCoordinateInChina(21.5, 114.2) && IsCoordinateInChina(22.2, 113.3) && IsCoordinateInChina(23.7, 121.9)
  {
  }

  // ---------------------------------------------------------------- GET: headers

  /** The request headers the handler reads (`headers.get` gives `null` when absent). */
  datatype GeoHeaders = GeoHeaders(
    eoCountry: Option<string>,       // EO-Client-IPCountry (Tencent EdgeOne)
    vercelCountry: Option<string>,   // x-vercel-ip-country
    cfCountry: Option<string>,       // cf-ipcountry (Cloudflare)
    forwardedFor: Option<string>,    // x-forwarded-for
    realIp: Option<string>,          // x-real-ip
    cfConnectingIp: Option<string>)  // cf-connecting-ip

  /** The country the CDN headers give: EdgeOne, then Vercel, then Cloudflare, each later one
      read only when every earlier one is absent or empty. */
  function HeaderCountry(h: GeoHeaders): (c: Option<string>)
    ensures Truthy(h.eoCountry) ==> c == h.eoCountry
    ensures !Truthy(h.eoCountry) && Truthy(h.vercelCountry) ==> c == h.vercelCountry
    ensures !Truthy(h.eoCountry) && !Truthy(h.vercelCountry) ==> c == h.cfCountry
  {
    var country := h.eoCountry;
    var country := if !Truthy(country) then h.vercelCountry else country;
    if !Truthy(country) then h.cfCountry else country
  }

  /** The first `x-forwarded-for` entry, trimmed: present iff the header is, never containing a
      comma, and the whole trimmed header when it lists a single address. */
  function ForwardedClient(h: GeoHeaders): (c: Option<string>)
    ensures c.Some? <==> h.forwardedFor.Some?
    ensures c.Some? ==> ',' !in c.value
    ensures h.forwardedFor.Some? && ',' !in h.forwardedFor.value ==> c == Some(Trim(h.forwardedFor.value))
  {
    match h.forwardedFor
    case None => None
    case Some(v) =>
      var first := Split(v, ',')[0];
      SplitFirstPiece(v, ',');
      TrimKeepsAbsent(first, ',');
      Some(Trim(first))
  }

  /** Trimming removes characters, so it cannot introduce one. */
  lemma TrimKeepsAbsent(s: string, c: char)
    requires c !in s
    ensures c !in Trim(s)
  {
    var t := Trim(s);
    var i := LeadingWhitespace(s);
    forall k | 0 <= k < |t| ensures t[k] != c {
      assert t[k] == s[i + k];
    }
  }

  /** The client IP: first forwarded-for entry, else `x-real-ip`, else `cf-connecting-ip`,
      else the literal `"unknown"`; each candidate is skipped when empty. */
  function ClientIp(h: GeoHeaders): (ip: string)
    ensures ip != ""
    ensures Truthy(ForwardedClient(h)) ==> ip == ForwardedClient(h).value
    ensures !Truthy(ForwardedClient(h)) && Truthy(h.realIp) ==> ip == h.realIp.value
    ensures !Truthy(ForwardedClient(h)) && !Truthy(h.realIp) && Truthy(h.cfConnectingIp) ==> ip == h.cfConnectingIp.value
    ensures !Truthy(ForwardedClient(h)) && !Truthy(h.realIp) && !Truthy(h.cfConnectingIp) ==> ip == "unknown"
  {
    Or(Or(Or(ForwardedClient(h), h.realIp), h.cfConnectingIp), Some("unknown")).value
  }

  /** The first forwarded-for entry is the text before the first comma, without surrounding
      white space. */
  lemma ForwardedClientIsFirstEntry(h: GeoHeaders, i: nat)
    requires h.forwardedFor.Some? && i < |h.forwardedFor.value|
    requires h.forwardedFor.value[i] == ',' && ',' !in h.forwardedFor.value[..i]
    ensures ForwardedClient(h) == Some(Trim(h.forwardedFor.value[..i]))
  {
    SplitFirstPiece(h.forwardedFor.value, ',');
  }

  /** The IP lookup is consulted only when no header gave a value, or the value is `"unknown"`. */
  function NeedsLookup(country: Option<string>): (r: bool)
    ensures r <==> country in {None, Some(""), Some("unknown")}
  {
    !Truthy(country) || country == Some("unknown")
  }

  /** The country the handler ends with: the header country, replaced by the lookup's
      `country_code` (possibly absent) when the lookup ran and answered ok. */
  function ResolveCountry(h: GeoHeaders, lookup: Fetch<Option<string>>): (c: Option<string>)
    ensures !NeedsLookup(HeaderCountry(h)) ==> c == HeaderCountry(h)
    ensures NeedsLookup(HeaderCountry(h)) && lookup.Ok? ==> c == lookup.data
    ensures !lookup.Ok? ==> c == HeaderCountry(h)
  {
    var country := HeaderCountry(h);
    if NeedsLookup(country) then
      match lookup
      case Ok(code) => code
      case _ => country
    else country
  }

  /** The JSON body of a GET. `clientIp` is `None` when the IP is omitted. */
  datatype GeoGetResponse = GeoGetResponse(isChina: bool, country: string, clientIp: Option<string>)

  /** A GET's response together with the IP the geolocation lookup was asked about
      (`None` when no lookup was made). */
  datatype GeoGetResult = GeoGetResult(response: GeoGetResponse, lookupQuery: Option<string>)

  /** GET `/api/geo`. `lookup` is what `ipapi.co` would answer (its `country_code`). */
  function Get(h: GeoHeaders, lookup: Fetch<Option<string>>): (r: GeoGetResult)
    ensures r.lookupQuery.Some? <==> NeedsLookup(HeaderCountry(h))
    ensures r.lookupQuery.Some? ==> r.lookupQuery.value == ClientIp(h)
    ensures r.response.isChina <==> ResolveCountry(h, lookup) == Some("CN")
    ensures r.response.country == (if Truthy(ResolveCountry(h, lookup)) then ResolveCountry(h, lookup).value else "unknown")
    ensures r.response.country != ""
    ensures r.response.clientIp.None? <==> ClientIp(h) == "unknown"
    ensures r.response.clientIp.Some? ==> r.response.clientIp.value == ClientIp(h)
  {
    var clientIp := ClientIp(h);
    var headerCountry := HeaderCountry(h);
    var query := if NeedsLookup(headerCountry) then Some(clientIp) else None;
    var country := ResolveCountry(h, lookup);
    var response := GeoGetResponse(
      country == Some("CN"),
      Or(country, Some("unknown")).value,
      if clientIp == "unknown" then None else Some(clientIp));
    GeoGetResult(response, query)
  }

  /** When a header resolved the country, the lookup is never made and its outcome is irrelevant. */
  lemma HeaderCountryShortCircuits(h: GeoHeaders, a: Fetch<Option<string>>, b: Fetch<Option<string>>)
    requires !NeedsLookup(HeaderCountry(h))
    ensures Get(h, a) == Get(h, b)
    ensures Get(h, a).lookupQuery.None?
  {
  }

  /** `EO-Client-IPCountry: CN` yields `isChina` without any lookup, whatever the other headers. */
  lemma EdgeOneChinaHeader(h: GeoHeaders, lookup: Fetch<Option<string>>)
    requires h.eoCountry == Some("CN")
    ensures Get(h, lookup).response.isChina && Get(h, lookup).response.country == "CN"
    ensures Get(h, lookup).lookupQuery.None?
  {
  }

  /** With no usable header and a failed lookup, the answer is "not China, country unknown". */
  lemma FailedLookupWithoutHeaders(h: GeoHeaders, lookup: Fetch<Option<string>>)
    requires !Truthy(h.eoCountry) && !Truthy(h.vercelCountry) && !Truthy(h.cfCountry)
    requires !lookup.Ok?
    ensures !Get(h, lookup).response.isChina && Get(h, lookup).response.country == "unknown"
  {
  }

  // ---------------------------------------------------------------- POST: coordinates

  /** A JSON number as `JSON.parse` yields it: a finite value, or an infinity when the literal
      overflows a double (`1e400`, `-1e400`). JSON text has no NaN. */
  datatype Coordinate = Finite(x: real) | PlusInfinity | MinusInfinity

  /** A field of the parsed body: a number (`typeof` is `'number'`, infinities included), or
      anything else (absent, string, null, ...). */
  datatype Field = Number(c: Coordinate) | NotNumber

  /** The parsed POST body; `None` when the body is not JSON or is JSON `null`
      (destructuring `null` throws). */
  datatype CoordinateBody = CoordinateBody(latitude: Field, longitude: Field)

  /** `isCoordinateInChina` on numbers that may be infinite: an infinite latitude fails the
      `latitude < 18 || latitude > 54` test and an infinite longitude the longitude test, so
      only finite points can be accepted. */
  function CoordinateInChina(latitude: Coordinate, longitude: Coordinate): (r: bool)
    ensures r <==> latitude.Finite? && longitude.Finite? && InMainlandRegion(latitude.x, longitude.x)
  {
    match (latitude, longitude)
    case (Finite(lat), Finite(lon)) => IsCoordinateInChina(lat, lon)
    case _ => false
  }

  /** How `JSON.stringify` writes a number back: infinities become `null` (`None`). */
  function Echo(c: Coordinate): (v: Option<real>)
    ensures v.Some? <==> c.Finite?
    ensures c.Finite? ==> v.value == c.x
  {
    if c.Finite? then Some(c.x) else None
  }

  datatype GeoPostResponse =
    | CoordinateVerdict(isChina: bool, latitude: Option<real>, longitude: Option<real>)   // 200, method: 'coordinate'
    | PostError(status: int, error: string)

  /** POST `/api/geo`. */
  function Post(body: Option<CoordinateBody>): (r: GeoPostResponse)
    ensures body.None? ==> r == PostError(500, "Failed to process coordinates")
    ensures body.Some? && (!body.value.latitude.Number? || !body.value.longitude.Number?) ==>
      r == PostError(400, "Invalid coordinates")
    ensures r.CoordinateVerdict? <==> body.Some? && body.value.latitude.Number? && body.value.longitude.Number?
    ensures r.CoordinateVerdict? ==>
      var lat := body.value.latitude.c;
      var lon := body.value.longitude.c;
      && (r.latitude.Some? <==> lat.Finite?) && (lat.Finite? ==> r.latitude.value == lat.x)
      && (r.longitude.Some? <==> lon.Finite?) && (lon.Finite? ==> r.longitude.value == lon.x)
      && (r.isChina <==> lat.Finite? && lon.Finite? && InMainlandRegion(lat.x, lon.x))
  {
    match body
    case None => PostError(500, "Failed to process coordinates")
    case Some(CoordinateBody(Number(lat), Number(lon))) => CoordinateVerdict(CoordinateInChina(lat, lon), Echo(lat), Echo(lon))
    case Some(_) => PostError(400, "Invalid coordinates")
  }

  /** An overflowing latitude is a number, so it gets a verdict rather than a 400: not China,
      with the latitude echoed as `null`. */
  lemma OverflowingCoordinate()
    ensures Post(Some(CoordinateBody(Number(PlusInfinity), Number(Finite(116.4)))))
      == CoordinateVerdict(false, None, Some(116.4))
    ensures Post(Some(CoordinateBody(Number(Finite(39.9)), Number(Finite(116.4)))))
      == CoordinateVerdict(true, Some(39.9), Some(116.4))
  {
  }
}

=== FILE: github.dfy ===
/** Release lookup against the source-hosting release API, and version extraction from tags.
    The two endpoints are abstract: `latest` stands for `/releases/latest`, `list` for
    `/releases` (newest first, as the API returns it). */
module Github {
  import opened Outcomes
  import Seqs

  /** One release as the API returns it. `tagName` is `None` when the JSON lacks a string
      `tag_name` (reading it as a string would then throw). */
  datatype Release = Release(
    tagName: Option<string>,
    name: string,
    publishedAt: string,
    htmlUrl: string,
    prerelease: bool)

  predicate IsStable(r: Release) {
    !r.prerelease
  }

  /** Fallback choice after a 404 from `/releases/latest`: the first stable release in list
      order, else the first release, else nothing. */
  function StableOrFirst(releases: seq<Release>): (r: Option<Release>)
    ensures r.None? <==> |releases| == 0
    ensures r.Some? ==> r.value in releases
    ensures r.Some? && !r.value.prerelease ==>
      exists i :: (0 <= i < |releases| && releases[i] == r.value && forall j :: 0 <= j < i ==> releases[j].prerelease)
    ensures r.Some? && r.value.prerelease ==> r.value == releases[0] && forall j :: 0 <= j < |releases| ==> releases[j].prerelease
  {
    var stable := Seqs.Find(releases, IsStable);
    if stable.Some? then stable
    else if |releases| > 0 then Some(releases[0])
    else None
  }

  /** `getLatestRelease`. The function never throws: every failure becomes `None` (`null`). */
  function GetLatestRelease(includePrerelease: bool, latest: Fetch<Release>, list: Fetch<seq<Release>>): (r: Option<Release>)
    ensures includePrerelease ==> (r.Some? <==> list.Ok? && |list.data| > 0)
    ensures includePrerelease && r.Some? ==> r.value == list.data[0]
    ensures !includePrerelease && latest.Ok? ==> r == Some(latest.data)
    ensures !includePrerelease && latest == NotOk(404) && list.Ok? ==> r == StableOrFirst(list.data)
    ensures !includePrerelease && !latest.Ok? && latest != NotOk(404) ==> r.None?
    ensures !includePrerelease && latest == NotOk(404) && !list.Ok? ==> r.None?
  {
    if includePrerelease then
      match list
      case Ok(releases) => if |releases| > 0 then Some(releases[0]) else None
      case _ => None
    else
      match latest
      case Ok(release) => Some(release)
      case NotOk(404) =>
        (match list
         case Ok(releases) => StableOrFirst(releases)
         case _ => None)
      case _ => None
  }

  /** With `includePrerelease` the `/releases/latest` answer is never consulted. */
  lemma PrereleaseIgnoresLatest(a: Fetch<Release>, b: Fetch<Release>, list: Fetch<seq<Release>>)
    ensures GetLatestRelease(true, a, list) == GetLatestRelease(true, b, list)
  {
  }

  /** After a 404 the result is a pre-release only when every listed release is one. */
  lemma FallbackPrereleaseOnlyIfAllAre(releases: seq<Release>)
    requires GetLatestRelease(false, NotOk(404), Ok(releases)).Some?
    ensures GetLatestRelease(false, NotOk(404), Ok(releases)).value.prerelease <==>
      forall j :: 0 <= j < |releases| ==> releases[j].prerelease
  {
    var r := StableOrFirst(releases);
    if !r.value.prerelease {
      var i :| 0 <= i < |releases| && releases[i] == r.value && forall j :: 0 <= j < i ==> releases[j].prerelease;
      assert !releases[i].prerelease;
    }
  }

  /** Example: a beta before a stable release; the list-head is the beta, the fallback the stable one. */
  lemma BetaThenStable()
    ensures var beta := Release(Some("v2.0.0-beta"), "", "", "", true);
      var stable := Release(Some("v1.9.0"), "", "", "", false);
      GetLatestRelease(true, Threw, Ok([beta, stable])) == Some(beta)
      && GetLatestRelease(false, NotOk(404), Ok([beta, stable])) == Some(stable)
  {
    var beta := Release(Some("v2.0.0-beta"), "", "", "", true);
    var stable := Release(Some("v1.9.0"), "", "", "", false);
    assert Seqs.FindIndex([beta, stable][1..], IsStable) == Some(0);
  }

  /** `extractVersionFromTag`: drops one leading lowercase `v`, if there is one. */
  function ExtractVersionFromTag(tagName: string): (v: string)
    ensures |tagName| - 1 <= |v| <= |tagName|
    ensures v == tagName[|tagName| - |v|..]
    ensures |v| < |tagName| <==> |tagName| > 0 && tagName[0] == 'v'
  {
    if "v" <= tagName then tagName[1..] else tagName
  }

  lemma ExtractVersionExamples()
    ensures ExtractVersionFromTag("v2.3.1") == "2.3.1"
    ensures ExtractVersionFromTag("2.3.1") == "2.3.1"
    ensures ExtractVersionFromTag("vv1") == "v1"
    ensures ExtractVersionFromTag("V1") == "V1"
    ensures ExtractVersionFromTag("") == ""
  {
    assert "v" <= "v2.3.1" && "v" <= "vv1";
  }
}

=== FILE: github_version.dfy ===
/** The `/api/github-version` endpoint: parses `repo=owner/name` and `includePrerelease`,
    looks up the release and maps the outcome to a response. */
module GithubVersion {
  import opened Outcomes
  import opened JsStrings
  import Github

  /** `includePrerelease` is on only for the exact text `true`. */
  function ParseIncludePrerelease(param: Option<string>): (b: bool)
    ensures b <==> param == Some("true")
  {
    param == Some("true")
  }

  datatype RepoRef = RepoRef(owner: string, name: string)

  /** `const [owner, repoName] = repo.split('/')`, rejected when either part is empty or missing.
      Segments after the second are ignored. */
  function ParseRepo(repo: string): (r: Option<RepoRef>)
    ensures r.Some? ==> r.value.owner != "" && r.value.name != ""
    ensures r.Some? ==> '/' !in r.value.owner && '/' !in r.value.name
    ensures r.Some? ==> r.value.owner + "/" + r.value.name <= repo
    ensures r.Some? ==> var n := |r.value.owner| + 1 + |r.value.name|; n == |repo| || repo[n] == '/'
    ensures '/' !in repo ==> r.None?
  {
    var pieces := Split(repo, '/');
    JoinSplit(repo, '/');
    var owner := pieces[0];
    var repoName := if |pieces| > 1 then pieces[1] else "";
    if owner == "" || repoName == "" then None
    else
      JoinPrefix(pieces);
      Some(RepoRef(owner, repoName))
  }

  /** The first two pieces of a split, glued, start the joined string and are followed by a
      separator or the end. */
  lemma JoinPrefix(pieces: seq<string>)
    requires |pieces| >= 2
    ensures pieces[0] + "/" + pieces[1] <= Join(pieces, '/')
    ensures var n := |pieces[0]| + 1 + |pieces[1]|; n == |Join(pieces, '/')| || Join(pieces, '/')[n] == '/'
  {
    var tail := pieces[1..];
    assert Join(pieces, '/') == pieces[0] + "/" + Join(tail, '/');
    if |tail| == 1 {
      assert Join(tail, '/') == pieces[1];
    } else {
      assert Join(tail, '/') == pieces[1] + "/" + Join(tail[1..], '/');
    }
  }

  /** Glued separator-free pieces parse to the first two, whatever follows them. */
  lemma ParseRepoJoin(pieces: seq<string>)
    requires |pieces| >= 2 && pieces[0] != "" && pieces[1] != ""
    requires forall k :: 0 <= k < |pieces| ==> '/' !in pieces[k]
    ensures ParseRepo(Join(pieces, '/')) == Some(RepoRef(pieces[0], pieces[1]))
  {
    SplitJoin(pieces, '/');
  }

  /** `owner/name` with two non-empty slash-free parts parses back to those parts. */
  lemma ParseRepoRoundTrip(owner: string, name: string)
    requires owner != "" && name != "" && '/' !in owner && '/' !in name
    ensures ParseRepo(owner + "/" + name) == Some(RepoRef(owner, name))
  {
    var two := [owner, name];
    assert Join(two, '/') == owner + "/" + name by {
      assert two[1..] == [name];
    }
    ParseRepoJoin(two);
  }

  /** The body of a successful response. */
  datatype VersionInfo = VersionInfo(version: string, isPrerelease: bool, tagName: string, publishedAt: string, url: string)

  datatype VersionResponse = Found(info: VersionInfo) | Failed(status: int, error: string)

  /** HTTP status of a response. */
  function Status(r: VersionResponse): int {
    match r
    case Found(_) => 200
    case Failed(status, _) => status
  }

  /** The release query the handler makes, if any. */
  datatype ReleaseQuery = ReleaseQuery(repo: RepoRef, includePrerelease: bool)

  datatype RouteResult = RouteResult(response: VersionResponse, query: Option<ReleaseQuery>)

  /** GET `/api/github-version`. `latest` and `list` are the release API's answers. */
  function HandleGet(repoParam: Option<string>, prereleaseParam: Option<string>,
                     latest: Fetch<Github.Release>, list: Fetch<seq<Github.Release>>): (r: RouteResult)
    ensures !Truthy(repoParam) ==> r == RouteResult(Failed(400, "Repository parameter is required"), None)
    ensures Truthy(repoParam) && ParseRepo(repoParam.value).None? ==>
      r == RouteResult(Failed(400, "Invalid repository format. Expected: owner/repo"), None)
    ensures r.query.Some? <==> Truthy(repoParam) && ParseRepo(repoParam.value).Some?
    ensures r.query.Some? ==> r.query.value == ReleaseQuery(ParseRepo(repoParam.value).value, prereleaseParam == Some("true"))
    ensures r.query.Some? ==>
      var release := Github.GetLatestRelease(prereleaseParam == Some("true"), latest, list);
      && (release.None? ==> r.response == Failed(404, "Failed to fetch release information"))
      && (release.Some? && release.value.tagName.None? ==> r.response == Failed(500, "Internal server error"))
      && (release.Some? && release.value.tagName.Some? ==>
            r.response.Found?
            && r.response.info.version == Github.ExtractVersionFromTag(release.value.tagName.value)
            && r.response.info.tagName == release.value.tagName.value
            && r.response.info.isPrerelease == release.value.prerelease
            && r.response.info.publishedAt == release.value.publishedAt
            && r.response.info.url == release.value.htmlUrl)
  {
    var includePrerelease := ParseIncludePrerelease(prereleaseParam);
    if !Truthy(repoParam) then
      RouteResult(Failed(400, "Repository parameter is required"), None)
    else
      match ParseRepo(repoParam.value)
      case None => RouteResult(Failed(400, "Invalid repository format. Expected: owner/repo"), None)
      case Some(ref) =>
        var query := Some(ReleaseQuery(ref, includePrerelease));
        match Github.GetLatestRelease(includePrerelease, latest, list)
        case None => RouteResult(Failed(404, "Failed to fetch release information"), query)
        case Some(release) =>
          match release.tagName
          case None => RouteResult(Failed(500, "Internal server error"), query)
          case Some(tag) =>
            var info := VersionInfo(Github.ExtractVersionFromTag(tag), release.prerelease, tag, release.publishedAt, release.htmlUrl);
            RouteResult(Found(info), query)
  }

  /** Every response is 200, 400, 404 or 500, and 200 exactly when a release with a tag was found. */
  lemma StatusCodes(repoParam: Option<string>, prereleaseParam: Option<string>,
                    latest: Fetch<Github.Release>, list: Fetch<seq<Github.Release>>)
    ensures var s := Status(HandleGet(repoParam, prereleaseParam, latest, list).response);
      s == 200 || s == 400 || s == 404 || s == 500
    ensures Status(HandleGet(repoParam, prereleaseParam, latest, list).response) == 200 <==>
      HandleGet(repoParam, prereleaseParam, latest, list).response.Found?
  {
  }
}

=== FILE: js_strings.dfy ===
/** The JavaScript string operations the site relies on, over `seq<char>`:
    `trim`, `split` on one character, `indexOf`/`includes`, `replace` with a string pattern,
    and `.length` (which counts UTF-16 code units). */
module JsStrings {
  import opened Outcomes

  /** White space and line terminators as ECMA-262 defines them (sections 12.2 and 12.3):
      the characters `String.prototype.trim` removes and the regular-expression class `\s` matches. */
  predicate IsWhitespace(c: char) {
    || c == '\t' || c == '\n' || c == '\U{000B}' || c == '\U{000C}' || c == '\r' || c == ' '
    || c == '\U{00A0}' || c == '\U{1680}' || ('\U{2000}' <= c <= '\U{200A}')
    || c == '\U{2028}' || c == '\U{2029}' || c == '\U{202F}' || c == '\U{205F}'
    || c == '\U{3000}' || c == '\U{FEFF}'
  }

  // ---------------------------------------------------------------- length

  /** Number of UTF-16 code units of one character: two for characters outside the BMP. */
  function CodeUnits(c: char): nat {
    if c as int >= 0x1_0000 then 2 else 1
  }

  /** Every character lies in the Basic Multilingual Plane (one UTF-16 code unit each). */
  predicate AllBmp(s: string) {
    forall k :: 0 <= k < |s| ==> s[k] as int < 0x1_0000
  }

  /** JavaScript `s.length`. The empty string has length 0, one character has length 1 inside
      the BMP and 2 outside it, and (`JsLengthAppend`) lengths add up under concatenation;
      together these fix the length of every string. */
  function JsLength(s: string): (n: nat)
    ensures |s| == 0 ==> n == 0
    ensures |s| == 1 ==> (n == 1 <==> s[0] as int < 0x1_0000) && (n == 2 <==> s[0] as int >= 0x1_0000)
    ensures |s| <= n <= 2 * |s|
    ensures AllBmp(s) ==> n == |s|
  {
    if |s| == 0 then 0 else CodeUnits(s[0]) + JsLength(s[1..])
  }

  /** The length of a concatenation is the sum of the lengths. */
  lemma {:induction false} JsLengthAppend(a: string, b: string)
    ensures JsLength(a + b) == JsLength(a) + JsLength(b)
    decreases |a|
  {
    if |a| > 0 {
      assert (a + b)[1..] == a[1..] + b;
      JsLengthAppend(a[1..], b);
    } else {
      assert a + b == b;
    }
  }

  // ---------------------------------------------------------------- search

  /** `pat` occurs in `s` starting at index `i`. */
  predicate OccursAt(s: string, pat: string, i: int) {
    0 <= i && i + |pat| <= |s| && s[i..i + |pat|] == pat
  }

  /** First occurrence of `pat` in `s` at or after `from`. */
  function IndexOfFrom(s: string, pat: string, from: nat): (r: Option<nat>)
    decreases |s| - from
    ensures r.Some? ==> from <= r.value && OccursAt(s, pat, r.value)
    ensures r.Some? ==> forall j :: from <= j < r.value ==> !OccursAt(s, pat, j)
    ensures r.None? <==> forall j :: from <= j ==> !OccursAt(s, pat, j)
  {
    if from + |pat| > |s| then None
    else if s[from..from + |pat|] == pat then assert OccursAt(s, pat, from); Some(from)
    else IndexOfFrom(s, pat, from + 1)
  }

  /** JavaScript `s.indexOf(pat)`, with `None` for -1. */
  function IndexOf(s: string, pat: string): (r: Option<nat>)
    ensures r.Some? ==> OccursAt(s, pat, r.value) && forall j :: 0 <= j < r.value ==> !OccursAt(s, pat, j)
    ensures r.None? <==> forall j :: !OccursAt(s, pat, j)
  {
    IndexOfFrom(s, pat, 0)
  }

  /** A pattern that starts the string is found at index 0. */
  lemma IndexOfPrefix(s: string, pat: string)
    ensures pat <= s ==> IndexOf(s, pat) == Some(0)
  {
    if pat <= s {
      assert s[0..|pat|] == pat;
    }
  }

  /** JavaScript `s.includes(pat)`: the pattern occurs somewhere. */
  function Contains(s: string, pat: string): (r: bool)
    ensures r <==> exists i :: OccursAt(s, pat, i)
  {
    IndexOf(s, pat).Some?
  }

  /** JavaScript `s.replace(pat, rep)` with a string pattern and a replacement free of `$`:
      only the first occurrence is replaced. */
  function ReplaceFirst(s: string, pat: string, rep: string): (r: string)
    ensures (forall j :: !OccursAt(s, pat, j)) ==> r == s
    ensures pat <= s ==> r == rep + s[|pat|..]
  {
    IndexOfPrefix(s, pat);
    match IndexOf(s, pat)
    case None => s
    case Some(i) => s[..i] + rep + s[i + |pat|..]
  }

  /** At the first occurrence `i` of the pattern, `replace` splices in the replacement. */
  lemma ReplaceFirstAt(s: string, pat: string, rep: string, i: int)
    requires OccursAt(s, pat, i) && forall j :: 0 <= j < i ==> !OccursAt(s, pat, j)
    ensures ReplaceFirst(s, pat, rep) == s[..i] + rep + s[i + |pat|..]
  {
    IndexOfFromFinds(s, pat, 0, i);
    ReplaceFirstAtIndexOf(s, pat, rep);
  }

  /** `replace` splices the replacement in where `indexOf` finds the pattern. */
  lemma ReplaceFirstAtIndexOf(s: string, pat: string, rep: string)
    requires IndexOf(s, pat).Some?
    ensures var i := IndexOf(s, pat).value;
      i + |pat| <= |s| && ReplaceFirst(s, pat, rep) == s[..i] + rep + s[i + |pat|..]
  {
  }

  /** Searching from `from` stops at the first occurrence at or after it. */
  lemma {:induction false} IndexOfFromFinds(s: string, pat: string, from: nat, i: int)
    requires from <= i && OccursAt(s, pat, i)
    requires forall j :: from <= j < i ==> !OccursAt(s, pat, j)
    ensures IndexOfFrom(s, pat, from) == Some(i)
    decreases i - from
  {
    if from < i {
      assert !OccursAt(s, pat, from);
      assert s[from..from + |pat|] != pat;
      IndexOfFromFinds(s, pat, from + 1, i);
    }
  }

  // ---------------------------------------------------------------- trim

  /** Length of the white-space run that starts `s`. */
  function LeadingWhitespace(s: string): (n: nat)
    ensures n <= |s|
    ensures forall k :: 0 <= k < n ==> IsWhitespace(s[k])
    ensures n < |s| ==> !IsWhitespace(s[n])
  {
    if |s| > 0 && IsWhitespace(s[0]) then 1 + LeadingWhitespace(s[1..]) else 0
  }

  /** Length of the white-space run that ends `s`. */
  function TrailingWhitespace(s: string): (n: nat)
    ensures n <= |s|
    ensures forall k :: |s| - n <= k < |s| ==> IsWhitespace(s[k])
    ensures n < |s| ==> !IsWhitespace(s[|s| - n - 1])
  {
    if |s| > 0 && IsWhitespace(s[|s| - 1]) then 1 + TrailingWhitespace(s[..|s| - 1]) else 0
  }

  /** `trim`: removes white space, and only white space, at both ends. The result is the
      slice of `s` that starts after its leading white space and neither starts nor ends with
      white space; it is empty exactly when `s` is all white space. */
  function Trim(s: string): (r: string)
    ensures r == [] || (!IsWhitespace(r[0]) && !IsWhitespace(r[|r| - 1]))
    ensures r == [] <==> forall k :: 0 <= k < |s| ==> IsWhitespace(s[k])
    ensures var i := LeadingWhitespace(s);
      && i + |r| <= |s| && r == s[i..i + |r|]
      && (forall k :: i + |r| <= k < |s| ==> IsWhitespace(s[k]))
  {
    var lo := LeadingWhitespace(s);
    if lo == |s| then ""
    else
      var hi := |s| - TrailingWhitespace(s);
      s[lo..hi]
  }

  // ---------------------------------------------------------------- split / join

  /** The inverse of `Split`: pieces glued with `sep`. */
  function Join(pieces: seq<string>, sep: char): string
    decreases |pieces|
  {
    if |pieces| == 0 then ""
    else if |pieces| == 1 then pieces[0]
    else pieces[0] + [sep] + Join(pieces[1..], sep)
  }

  /** JavaScript `s.split(sep)` for a one-character separator: always at least one piece
      (`"".split("/")` is `[""]`), and no piece contains the separator. */
  function Split(s: string, sep: char): (r: seq<string>)
    decreases |s|
    ensures |r| >= 1
    ensures forall k :: 0 <= k < |r| ==> sep !in r[k]
  {
    if |s| == 0 then [""]
    else
      var rest := Split(s[1..], sep);
      if s[0] == sep then [""] + rest
      else [[s[0]] + rest[0]] + rest[1..]
  }

  /** Gluing the pieces back gives the original string. */
  lemma {:induction false} JoinSplit(s: string, sep: char)
    ensures Join(Split(s, sep), sep) == s
    decreases |s|
  {
    if |s| > 0 {
      var rest := Split(s[1..], sep);
      JoinSplit(s[1..], sep);
      if s[0] == sep {
        assert Split(s, sep)[1..] == rest;
      } else {
        var r := Split(s, sep);
        assert r[1..] == rest[1..];
        if |rest| == 1 {
          assert Join(r, sep) == [s[0]] + rest[0];
        } else {
          assert Join(r, sep) == [s[0]] + rest[0] + [sep] + Join(rest[1..], sep);
          assert Join(rest, sep) == rest[0] + [sep] + Join(rest[1..], sep);
        }
        assert [s[0]] + s[1..] == s;
      }
    }
  }

  /** Splitting glued separator-free pieces gives the pieces back. */
  lemma {:induction false} SplitJoin(pieces: seq<string>, sep: char)
    requires |pieces| >= 1
    requires forall k :: 0 <= k < |pieces| ==> sep !in pieces[k]
    ensures Split(Join(pieces, sep), sep) == pieces
    decreases |Join(pieces, sep)|
  {
    var s := Join(pieces, sep);
    var p := pieces[0];
    if |p| == 0 {
      if |pieces| == 1 {
        assert s == "";
      } else {
        assert s == [sep] + Join(pieces[1..], sep);
        assert s[1..] == Join(pieces[1..], sep);
        SplitJoin(pieces[1..], sep);
        assert Split(s, sep) == [""] + pieces[1..];
        assert [""] + pieces[1..] == pieces;
      }
    } else {
      var tail := [p[1..]] + pieces[1..];
      assert tail[1..] == pieces[1..];
      assert forall k :: 0 <= k < |tail| ==> sep !in tail[k] by {
        forall k | 0 <= k < |tail| ensures sep !in tail[k] {
          if k == 0 {
            assert forall c :: c in p[1..] ==> c in p;
          } else {
            assert tail[k] == pieces[k];
          }
        }
      }
      if |pieces| == 1 {
        assert Join(tail, sep) == p[1..];
      } else {
        assert Join(tail, sep) == p[1..] + [sep] + Join(pieces[1..], sep);
      }
      assert s == [p[0]] + Join(tail, sep);
      assert s[0] == p[0] && s[1..] == Join(tail, sep);
      SplitJoin(tail, sep);
      assert p[0] != sep by { assert p[0] in p; }
      assert Split(s, sep) == [[p[0]] + p[1..]] + pieces[1..];
      assert [p[0]] + p[1..] == p;
      assert [p] + pieces[1..] == pieces;
    }
  }

  /** The first piece of a split is the prefix up to the first separator. */
  lemma {:induction false} SplitFirstPiece(s: string, sep: char)
    ensures sep !in s ==> Split(s, sep) == [s]
    ensures forall i :: 0 <= i < |s| && s[i] == sep && sep !in s[..i] ==> Split(s, sep)[0] == s[..i]
    decreases |s|
  {
    if |s| > 0 {
      SplitFirstPiece(s[1..], sep);
      if sep !in s {
        assert sep !in s[1..] by { assert forall c :: c in s[1..] ==> c in s; }
        assert s[0] != sep by { assert s[0] in s; }
        assert [s[0]] + s[1..] == s;
      }
      forall i | 0 <= i < |s| && s[i] == sep && sep !in s[..i]
        ensures Split(s, sep)[0] == s[..i]
      {
        if i > 0 {
          SplitFirstPieceStep(s, sep, i);
        }
      }
    }
  }

  /** One step of `SplitFirstPiece`: a separator at `i > 0` with none before it is also the
      first separator of `s[1..]`, and `s[0]` is kept in front of the first piece. */
  lemma SplitFirstPieceStep(s: string, sep: char, i: int)
    requires 0 < i < |s| && s[i] == sep && sep !in s[..i]
    requires forall i' :: 0 <= i' < |s[1..]| && s[1..][i'] == sep && sep !in s[1..][..i'] ==> Split(s[1..], sep)[0] == s[1..][..i']
    ensures Split(s, sep)[0] == s[..i]
  {
    var pre := s[..i];
    assert pre[0] == s[0];
    assert s[0] != sep by { assert pre[0] in pre; }
    var t := s[1..];
    assert t[i - 1] == sep;
    assert t[..i - 1] == pre[1..];
    assert sep !in t[..i - 1] by {
      forall c | c in pre[1..] ensures c in pre {
        var k :| 0 <= k < |pre[1..]| && pre[1..][k] == c;
        assert pre[k + 1] == c;
      }
    }
    assert Split(t, sep)[0] == t[..i - 1];
    assert [s[0]] + pre[1..] == pre;
  }
}

=== FILE: language_switcher.dfy ===
/** The header's language switcher: toggles between Chinese and English by rewriting the
    locale segment of the current path. */
module LanguageSwitcher {
  import opened Outcomes
  import opened JsStrings
  import Routing

  /** `isSwitching`, and whether the page carries the `page-transitioning` fade class. */
  datatype SwitcherState = SwitcherState(isSwitching: bool, fading: bool)

  /** The delay before `router.push` in the browser, in milliseconds. */
  const FadeDelay := 300

  /** `locale === 'zh' ? 'en' : 'zh'`. */
  function ToggleLocale(locale: string): (l: string)
    ensures l == "en" <==> locale == "zh"
    ensures Routing.IsValidLocale(l)
    ensures Routing.IsValidLocale(locale) ==> l != locale
  {
    if locale == "zh" then "en" else "zh"
  }

  /** For the two valid locales, toggling twice is the identity. */
  lemma ToggleTwice(locale: string)
    requires Routing.IsValidLocale(locale)
    ensures ToggleLocale(ToggleLocale(locale)) == locale
  {
  }

  /** `pathname.replace('/' + locale, '/' + newLocale)`: only the first occurrence is rewritten. */
  function SwitchPath(pathname: string, locale: string): (p: string)
    ensures (forall j :: !OccursAt(pathname, "/" + locale, j)) ==> p == pathname
    ensures ("/" + locale) <= pathname ==> p == "/" + ToggleLocale(locale) + pathname[|locale| + 1..]
  {
    var pat := "/" + locale;
    var rep := "/" + ToggleLocale(locale);
    ReplaceFirst(pathname, pat, rep)
  }

  /** A navigation, if any, and how many milliseconds after the click it happens. */
  datatype SwitchStep = SwitchStep(next: SwitcherState, navigateTo: Option<string>, delay: nat)

  /** `switchLanguage`. `hasDocument` tells the browser branch (fade class, then navigation after
      the delay) from the server branch (immediate navigation). */
  function SwitchLanguage(s: SwitcherState, locale: string, pathname: string, hasDocument: bool): (r: SwitchStep)
    ensures s.isSwitching ==> r == SwitchStep(s, None, 0)
    ensures !s.isSwitching ==> r.next.isSwitching && r.navigateTo == Some(SwitchPath(pathname, locale))
    ensures !s.isSwitching ==> (r.next.fading <==> s.fading || hasDocument)
    ensures !s.isSwitching ==> (r.delay == if hasDocument then FadeDelay else 0)
  {
    if s.isSwitching then SwitchStep(s, None, 0)
    else
      var newPath := SwitchPath(pathname, locale);
      if hasDocument then SwitchStep(SwitcherState(true, true), Some(newPath), FadeDelay)
      else SwitchStep(s.(isSwitching := true), Some(newPath), 0)
  }

  /** The browser and server branches navigate to the same path; only the browser fades the page
      and waits before navigating. */
  lemma BothBranchesAgree(s: SwitcherState, locale: string, pathname: string)
    requires !s.isSwitching
    ensures var browser := SwitchLanguage(s, locale, pathname, true);
      var server := SwitchLanguage(s, locale, pathname, false);
      && browser.navigateTo == server.navigateTo && browser.next.isSwitching == server.next.isSwitching
      && browser.next.fading && server.next.fading == s.fading
      && browser.delay == FadeDelay && server.delay == 0
  {
  }

  /** The pathname effect: a new path removes the fade class and re-enables the switcher. */
  function PathnameChanged(s: SwitcherState): (r: SwitcherState)
    ensures !r.isSwitching && !r.fading
  {
    SwitcherState(false, false)
  }

  /** Switching twice, with the navigation in between, brings a locale-prefixed path back. */
  lemma SwitchTwiceRestoresPath(locale: string, rest: string, hasDocument: bool)
    requires Routing.IsValidLocale(locale)
    ensures var path := "/" + locale + rest;
      var first := SwitchLanguage(SwitcherState(false, false), locale, path, hasDocument);
      var second := SwitchLanguage(PathnameChanged(first.next), ToggleLocale(locale), first.navigateTo.value, hasDocument);
      second.navigateTo == Some(path)
  {
    var path := "/" + locale + rest;
    assert ("/" + locale) <= path;
    assert path[|locale| + 1..] == rest;
    var mid := "/" + ToggleLocale(locale) + rest;
    assert ("/" + ToggleLocale(locale)) <= mid;
    assert mid[|ToggleLocale(locale)| + 1..] == rest;
  }

  /** Only the first occurrence is rewritten. */
  lemma SwitchPathFirstOnly()
    ensures SwitchPath("/zh/zh", "zh") == "/en/zh"
  {
    var path := "/zh/zh";
    assert "/" + "zh" == "/zh";
    assert "/" + ToggleLocale("zh") == "/en";
    assert "/zh" <= path;
    assert path[3..] == "/zh";
    assert "/en" + "/zh" == "/en/zh";
  }
}

=== FILE: outcomes.dfy ===
/** Optional values, abstract fetch outcomes and the few JSON shapes the site inspects.
    Every network or browser call of the site is replaced by one of these values, passed in
    by the caller, so each decision rule becomes a pure function. */
module Outcomes {

  /** `null`/`undefined` versus a present value. */
  datatype Option<+T> = None | Some(value: T) {
    function GetOr(default: T): T {
      match this
      case Some(v) => v
      case None => default
    }
  }

  /** The outcome of `fetch(...)` followed by reading its JSON body:
      an ok response carrying `data`, a non-ok response with its status, or a thrown error
      (network failure or unparsable body). */
  datatype Fetch<+T> = Ok(data: T) | NotOk(status: int) | Threw

  /** A JSON scalar as read from a parsed body; `JComposite` stands for arrays and objects. */
  datatype Json = JNull | JBool(b: bool) | JNumber(n: real) | JString(s: string) | JComposite

  /** JavaScript truthiness of an optional string: `null`, `undefined` and `""` are falsy. */
  predicate Truthy(s: Option<string>) {
    s.Some? && s.value != ""
  }

  /** JavaScript `a || b` on optional strings. */
  function Or(a: Option<string>, b: Option<string>): Option<string> {
    if Truthy(a) then a else b
  }
}

=== FILE: products.dfy ===
/** The product catalogue and its lookups. The catalogue itself is a JSON file the model
    receives as a value. */
module Products {
  import opened Outcomes
  import Seqs

  datatype LocalizedString = LocalizedString(zh: string, en: string)

  /** Where a product can be downloaded: the X-Plane.org store page and the mainland CDN. */
  datatype DownloadLinks = DownloadLinks(xplaneOrg: string, cdn: string)

  datatype Product = Product(
    id: string,
    slug: string,
    name: LocalizedString,
    description: LocalizedString,
    longDescription: LocalizedString,
    image: string,
    download: DownloadLinks,
    version: string,
    githubRepo: Option<string>,   // "owner/repo", used for version fetching
    tags: seq<string>,
    features: Option<seq<LocalizedString>>)

  /** The parsed catalogue file. */
  datatype ProductsData = ProductsData(products: seq<Product>)

  /** `getAllProducts`: the catalogue's products, unmodified and in file order. */
  function GetAllProducts(data: ProductsData): (ps: seq<Product>)
    ensures |ps| == |data.products|
    ensures forall i :: 0 <= i < |ps| ==> ps[i] == data.products[i]
  {
    data.products
  }

  predicate HasSlug(slug: string, p: Product) {
    p.slug == slug
  }

  /** `getProductBySlug`: the first product, in catalogue order, whose slug matches;
      `None` exactly when no product has that slug. */
  function GetProductBySlug(data: ProductsData, slug: string): (r: Option<Product>)
    ensures r.Some? ==> r.value.slug == slug && r.value in data.products
    ensures r.None? <==> forall i :: 0 <= i < |data.products| ==> data.products[i].slug != slug
    ensures r.Some? ==> exists i :: (0 <= i < |data.products| && data.products[i] == r.value
                                     && forall j :: 0 <= j < i ==> data.products[j].slug != slug)
  {
    Seqs.Find(GetAllProducts(data), p => HasSlug(slug, p))
  }

  /** The slugs of a product list, in order. */
  function SlugsOf(ps: seq<Product>): (slugs: seq<string>)
    ensures |slugs| == |ps|
    ensures forall i :: 0 <= i < |ps| ==> slugs[i] == ps[i].slug
  {
    if |ps| == 0 then [] else [ps[0].slug] + SlugsOf(ps[1..])
  }

  /** `getProductSlugs`: one slug per product, order preserved. */
  function GetProductSlugs(data: ProductsData): (slugs: seq<string>)
    ensures |slugs| == |data.products|
    ensures forall i :: 0 <= i < |slugs| ==> slugs[i] == data.products[i].slug
  {
    SlugsOf(GetAllProducts(data))
  }

  /** Every listed slug leads back to a product carrying that slug, and the lookup returns
      the listed product itself unless an earlier product shares its slug. */
  lemma SlugsAreFound(data: ProductsData, i: nat)
    requires i < |data.products|
    ensures GetProductBySlug(data, GetProductSlugs(data)[i]).Some?
    ensures GetProductBySlug(data, GetProductSlugs(data)[i]).value.slug == data.products[i].slug
    ensures (forall j :: 0 <= j < i ==> data.products[j].slug != data.products[i].slug) ==>
      GetProductBySlug(data, GetProductSlugs(data)[i]) == Some(data.products[i])
  {
    var slug := GetProductSlugs(data)[i];
    assert slug == data.products[i].slug;
    var r := GetProductBySlug(data, slug);
    assert r.Some?;
    if forall j :: 0 <= j < i ==> data.products[j].slug != slug {
      var k :| 0 <= k < |data.products| && data.products[k] == r.value
        && forall j :: 0 <= j < k ==> data.products[j].slug != slug;
      FirstMatchIsUnique(data.products, slug, k, i);
    }
  }

  /** Two first matches of the same slug are the same position. */
  lemma FirstMatchIsUnique(ps: seq<Product>, slug: string, k: int, i: int)
    requires 0 <= k < |ps| && 0 <= i < |ps| && ps[k].slug == slug && ps[i].slug == slug
    requires forall j :: 0 <= j < k ==> ps[j].slug != slug
    requires forall j :: 0 <= j < i ==> ps[j].slug != slug
    ensures k == i
  {
    assert !(k < i);
    assert !(i < k);
  }
}

=== FILE: proxy.dfy ===
/** The request proxy: redirects the bare root to a locale chosen by the CDN country header
    and hands every other path to the i18n middleware. */
module Proxy {
  import opened Outcomes
  import Routing

  /** The path is `/<locale>` or starts with `/<locale>/`. */
  predicate HasPrefix(pathname: string, locale: string) {
    ("/" + locale + "/") <= pathname || pathname == "/" + locale
  }

  /** `locales.some(...)`: some locale of the list prefixes the path. */
  predicate SomeLocalePrefixes(pathname: string, locales: seq<string>) {
    |locales| > 0 && (HasPrefix(pathname, locales[0]) || SomeLocalePrefixes(pathname, locales[1..]))
  }

  /** `pathnameHasLocale`. */
  function PathnameHasLocale(pathname: string): (r: bool)
    ensures r <==> pathname == "/zh" || pathname == "/en" || "/zh/" <= pathname || "/en/" <= pathname
  {
    assert Routing.Locales[1..] == ["en"] && ["en"][1..] == [];
    assert "/" + "zh" == "/zh" && "/" + "zh" + "/" == "/zh/";
    assert "/" + "en" == "/en" && "/" + "en" + "/" == "/en/";
    assert SomeLocalePrefixes(pathname, ["en"]) == HasPrefix(pathname, "en");
    assert SomeLocalePrefixes(pathname, Routing.Locales) == (HasPrefix(pathname, "zh") || HasPrefix(pathname, "en"));
    SomeLocalePrefixes(pathname, Routing.Locales)
  }

  /** What the proxy does with a request. */
  datatype Decision = Redirect(target: string) | Delegate

  /** The proxy. `eoCountry` is `EO-Client-IPCountry`, `vercelCountry` is `x-vercel-ip-country`;
      `cf-ipcountry` is not consulted. */
  function HandleRequest(pathname: string, eoCountry: Option<string>, vercelCountry: Option<string>): (d: Decision)
    ensures d.Redirect? <==> pathname == "/"
    ensures d.Redirect? ==> (d.target == "/zh" <==> Or(eoCountry, vercelCountry) == Some("CN"))
    ensures d.Redirect? ==> d.target == "/zh" || d.target == "/en"
  {
    if !PathnameHasLocale(pathname) && pathname == "/" then
      var country := Or(eoCountry, vercelCountry);
      var locale := if country == Some("CN") then "zh" else "en";
      assert "/" + "zh" == "/zh" && "/" + "en" == "/en" && "/en" != "/zh";
      Redirect("/" + locale)
    else
      Delegate
  }

  /** A redirect lands on a locale-prefixed path, which is never redirected again. */
  lemma RedirectIsFinal(pathname: string, eo: Option<string>, vercel: Option<string>, eo2: Option<string>, vercel2: Option<string>)
    requires HandleRequest(pathname, eo, vercel).Redirect?
    ensures var t := HandleRequest(pathname, eo, vercel).target;
      t != "/" && PathnameHasLocale(t) && Routing.IsValidLocale(t[1..]) && HandleRequest(t, eo2, vercel2) == Delegate
  {
  }

  /** EdgeOne's header wins over Vercel's whenever it is non-empty; a missing header means English. */
  lemma EdgeOneHeaderWins(eo: string, vercel: Option<string>)
    requires eo != ""
    ensures HandleRequest("/", Some(eo), vercel) == Redirect(if eo == "CN" then "/zh" else "/en")
    ensures HandleRequest("/", None, None) == Redirect("/en")
  {
  }

  /** Only whole path segments count as a locale prefix. */
  lemma LocalePrefixIsASegment()
    ensures !PathnameHasLocale("/zhx") && !PathnameHasLocale("/") && !PathnameHasLocale("/ZH")
    ensures PathnameHasLocale("/zh") && PathnameHasLocale("/en/products/a")
  {
    assert "/en/" <= "/en/products/a";
    assert !("/zh/" <= "/zhx") by { assert "/zhx"[3] != "/zh/"[3]; }
    assert "/zhx" != "/zh" && "/zhx" != "/en" && !("/en/" <= "/zhx");
    assert !("/zh/" <= "/ZH") && !("/en/" <= "/ZH") && "/ZH" != "/zh" && "/ZH" != "/en";
  }
}

=== FILE: routing.dfy ===
/** The site's locales: Chinese and English, English by default. */
module Routing {

  const Locales: seq<string> := ["zh", "en"]
  const DefaultLocale: string := "en"

  /** `isValidLocale`: exact membership in the locale list. */
  function IsValidLocale(locale: string): (r: bool)
    ensures r <==> locale == "zh" || locale == "en"
  {
    locale in Locales
  }

  /** The list holds two distinct locales, the default among them; matching is exact. */
  lemma LocaleFacts()
    ensures |Locales| == 2 && Locales[0] != Locales[1]
    ensures IsValidLocale(DefaultLocale)
    ensures !IsValidLocale("ZH") && !IsValidLocale("zh-CN") && !IsValidLocale("")
  {
  }
}

=== FILE: seqs.dfy ===
/** First-match search over a sequence, the semantics of `Array.prototype.find`. */
module Seqs {
  import opened Outcomes

  /** Index of the first element satisfying `p`, or `None` when no element does. */
  function FindIndex<T>(s: seq<T>, p: T -> bool): (r: Option<nat>)
    ensures r.Some? ==> r.value < |s| && p(s[r.value])
    ensures r.Some? ==> forall j :: 0 <= j < r.value ==> !p(s[j])
    ensures r.None? <==> forall j :: 0 <= j < |s| ==> !p(s[j])
  {
    if |s| == 0 then None
    else if p(s[0]) then Some(0)
    else
      match FindIndex(s[1..], p)
      case None => None
      case Some(k) => Some(k + 1)
  }

  /** `s.find(p)`: the first element satisfying `p`, or `None` (`undefined`). */
  function Find<T>(s: seq<T>, p: T -> bool): (r: Option<T>)
    ensures r.Some? ==> p(r.value) && r.value in s
    ensures r.None? <==> forall j :: 0 <= j < |s| ==> !p(s[j])
    ensures r.Some? ==> exists i :: 0 <= i < |s| && s[i] == r.value && forall j :: 0 <= j < i ==> !p(s[j])
  {
    match FindIndex(s, p)
    case None => None
    case Some(i) => Some(s[i])
  }
}

=== FILE: smart_download.dfy ===
/** The smart download button: detects the region once on mount, then offers the CDN link
    (mainland China only) and, in a dropdown, the X-Plane.org store link (unless it is still a
    placeholder). Browser effects are explicit: events come in, the URLs opened in new tabs come out. */
module SmartDownload {
  import opened Outcomes
  import opened JsStrings
  import Routing
  import opened Products

  /** The locale the button renders in: the current one if valid, else English. */
  function ButtonLocale(raw: string): (l: string)
    ensures Routing.IsValidLocale(l)
    ensures Routing.IsValidLocale(raw) ==> l == raw
    ensures !Routing.IsValidLocale(raw) ==> l == "en"
  {
    if Routing.IsValidLocale(raw) then raw else "en"
  }

  /** The store link is a placeholder while its URL contains `TODO_` anywhere. */
  function IsPlaceholder(links: DownloadLinks): (r: bool)
    ensures r <==> exists i :: OccursAt(links.xplaneOrg, "TODO_", i)
  {
    Contains(links.xplaneOrg, "TODO_")
  }

  const ChinaTimezones: seq<string> := ["Asia/Shanghai", "Asia/Chongqing", "Asia/Harbin", "Asia/Urumqi"]

  /** What fetching `/api/geo` gave the browser: the body's `isChina` (`None` when absent), or a
      thrown error from the fetch or from parsing the body. */
  datatype GeoFetch = GeoAnswered(isChina: Option<bool>) | GeoThrew

  /** `detectRegion`: the server's verdict, or on failure the browser timezone heuristic. */
  function DetectRegion(fetched: GeoFetch, timezone: string): (isChina: Option<bool>)
    ensures fetched.GeoAnswered? ==> isChina == fetched.isChina
    ensures fetched.GeoThrew? ==> isChina.Some?
    ensures fetched.GeoThrew? ==> (isChina.value <==>
      timezone == "Asia/Shanghai" || timezone == "Asia/Chongqing" || timezone == "Asia/Harbin" || timezone == "Asia/Urumqi")
  {
    match fetched
    case GeoAnswered(v) => v
    case GeoThrew => Some(timezone in ChinaTimezones)
  }

  /** The component's state: region verdict (`None` is `null`), dropdown, loading flag. */
  datatype ButtonState = ButtonState(isChina: Option<bool>, dropdownOpen: bool, loading: bool)

  const Initial := ButtonState(None, false, true)

  /** A URL handed to `window.open`. */
  datatype Target = CdnLink(url: string) | StoreLink(url: string)

  datatype StepResult = StepResult(next: ButtonState, newTab: Option<Target>)

  /** `handleCdnDownload`: opens the CDN link only when the region is mainland China. */
  function HandleCdnDownload(links: DownloadLinks, s: ButtonState): (r: StepResult)
    ensures r.next == s
    ensures r.newTab.Some? <==> s.isChina == Some(true)
    ensures r.newTab.Some? ==> r.newTab.value == CdnLink(links.cdn)
  {
    StepResult(s, if s.isChina == Some(true) then Some(CdnLink(links.cdn)) else None)
  }

  /** `handleXplaneOrgDownload`: opens the store link unless it is a placeholder, and closes the
      dropdown either way. */
  function HandleXplaneOrgDownload(links: DownloadLinks, s: ButtonState): (r: StepResult)
    ensures !r.next.dropdownOpen
    ensures r.next == s.(dropdownOpen := false)
    ensures r.newTab.Some? <==> !IsPlaceholder(links)
    ensures r.newTab.Some? ==> r.newTab.value == StoreLink(links.xplaneOrg)
  {
    StepResult(s.(dropdownOpen := false), if !IsPlaceholder(links) then Some(StoreLink(links.xplaneOrg)) else None)
  }

  /** What is on screen. */
  datatype View =
    | Spinner
    | Buttons(cdnEnabled: bool, dropdownShown: bool, storeEnabled: bool, comingSoonShown: bool, storeAvailableNote: bool)

  /** The rendered view. The store entry, and the "coming soon" text under it, exist only inside
      the open dropdown; the "X-Plane.org available" note under the buttons is always rendered
      for a real store link. */
  function Render(links: DownloadLinks, s: ButtonState): (v: View)
    ensures v.Spinner? <==> s.loading
    ensures v.Buttons? ==> (v.cdnEnabled <==> s.isChina == Some(true))
    ensures v.Buttons? ==> (v.dropdownShown <==> s.dropdownOpen)
    ensures v.Buttons? ==> (v.storeEnabled <==> !IsPlaceholder(links))
    ensures v.Buttons? ==> (v.comingSoonShown <==> s.dropdownOpen && IsPlaceholder(links))
    ensures v.Buttons? ==> (v.storeAvailableNote <==> !IsPlaceholder(links))
  {
    if s.loading then Spinner
    else
      var cdnDisabled := s.isChina != Some(true);
      var placeholder := IsPlaceholder(links);
      Buttons(!cdnDisabled, s.dropdownOpen, !placeholder, s.dropdownOpen && placeholder, !placeholder)
  }

  /** Things that happen to the component. */
  datatype Event =
    | RegionDetected(fetched: GeoFetch, timezone: string)   // the mount effect completes
    | ArrowClicked
    | CdnClicked
    | StoreClicked
    | MouseDown(inside: bool)

  /** One event, delivered as the browser would: clicks reach only rendered, enabled buttons;
      the outside-click listener does nothing while the spinner (which carries no ref) is shown;
      detection runs once. */
  function Step(links: DownloadLinks, s: ButtonState, e: Event): (r: StepResult)
    ensures s.loading ==> r.newTab.None?
    ensures s.loading && !e.RegionDetected? ==> r.next == s
    ensures r.newTab.Some? && r.newTab.value.CdnLink? ==> e == CdnClicked && s.isChina == Some(true) && r.newTab.value.url == links.cdn
    ensures r.newTab.Some? && r.newTab.value.StoreLink? ==> e == StoreClicked && !IsPlaceholder(links) && r.newTab.value.url == links.xplaneOrg
    ensures e.RegionDetected? && s.loading ==> !r.next.loading && r.next.isChina == DetectRegion(e.fetched, e.timezone)
    ensures !s.loading && e == ArrowClicked ==> r.next == s.(dropdownOpen := !s.dropdownOpen)
    ensures !s.loading && e == MouseDown(false) ==> !r.next.dropdownOpen
    ensures !s.loading ==> !r.next.loading && r.next.isChina == s.isChina
    ensures !e.RegionDetected? ==> r.next.loading == s.loading && r.next.isChina == s.isChina
    ensures !s.loading && e == CdnClicked ==> r == HandleCdnDownload(links, s)
    ensures !s.loading && e == CdnClicked && s.isChina == Some(true) ==> r.newTab == Some(CdnLink(links.cdn))
    ensures !s.loading && e == StoreClicked && s.dropdownOpen && !IsPlaceholder(links) ==>
      r == HandleXplaneOrgDownload(links, s) && r.newTab == Some(StoreLink(links.xplaneOrg))
    ensures e == StoreClicked && !(s.dropdownOpen && !IsPlaceholder(links)) ==> r == StepResult(s, None)
    ensures !s.loading && e == MouseDown(false) ==> r == StepResult(s.(dropdownOpen := false), None)
    ensures e == MouseDown(true) ==> r == StepResult(s, None)
  {
    var view := Render(links, s);
    match e
    case RegionDetected(fetched, timezone) =>
      if s.loading then StepResult(s.(isChina := DetectRegion(fetched, timezone), loading := false), None)
      else StepResult(s, None)
    case ArrowClicked =>
      if view.Buttons? then StepResult(s.(dropdownOpen := !s.dropdownOpen), None) else StepResult(s, None)
    case CdnClicked =>
      if view.Buttons? && view.cdnEnabled then HandleCdnDownload(links, s) else StepResult(s, None)
    case StoreClicked =>
      if view.Buttons? && view.dropdownShown && view.storeEnabled then HandleXplaneOrgDownload(links, s)
      else StepResult(s, None)
    case MouseDown(inside) =>
      if view.Buttons? && !inside then StepResult(s.(dropdownOpen := false), None) else StepResult(s, None)
  }

  /** States reachable from mount: while loading there is no verdict and no open dropdown. */
  predicate Reachable(s: ButtonState) {
    s.loading ==> s.isChina.None? && !s.dropdownOpen
  }

  /** The outcome of a run of events: the final state and every URL opened, in order. */
  datatype Run = Run(final: ButtonState, tabs: seq<Target>)

  function RunEvents(links: DownloadLinks, s: ButtonState, events: seq<Event>): Run
    decreases |events|
  {
    if |events| == 0 then Run(s, [])
    else
      var r := Step(links, s, events[0]);
      var rest := RunEvents(links, r.next, events[1..]);
      Run(rest.final, (if r.newTab.Some? then [r.newTab.value] else []) + rest.tabs)
  }

  /** The region verdict is written only by detection. */
  predicate NeverMainland(events: seq<Event>) {
    forall k :: 0 <= k < |events| && events[k].RegionDetected? ==>
      DetectRegion(events[k].fetched, events[k].timezone) != Some(true)
  }

  /** Over any run from mount: states stay reachable, a placeholder store link is never opened,
      and if detection never says "mainland", no CDN link is ever opened. */
  lemma {:induction false} RunGuards(links: DownloadLinks, s: ButtonState, events: seq<Event>)
    requires Reachable(s) && s.isChina != Some(true)
    requires NeverMainland(events)
    ensures Reachable(RunEvents(links, s, events).final)
    ensures forall k :: 0 <= k < |RunEvents(links, s, events).tabs| ==>
      RunEvents(links, s, events).tabs[k].StoreLink? && !IsPlaceholder(links)
    decreases |events|
  {
    if |events| > 0 {
      var r := Step(links, s, events[0]);
      assert NeverMainland(events[1..]) by {
        forall k | 0 <= k < |events[1..]| && events[1..][k].RegionDetected?
          ensures DetectRegion(events[1..][k].fetched, events[1..][k].timezone) != Some(true)
        {
          assert events[1..][k] == events[k + 1];
        }
      }
      assert r.next.isChina != Some(true);
      assert Reachable(r.next);
      RunGuards(links, r.next, events[1..]);
      var head: seq<Target> := if r.newTab.Some? then [r.newTab.value] else [];
      var rest := RunEvents(links, r.next, events[1..]);
      var all := RunEvents(links, s, events).tabs;
      assert RunEvents(links, s, events).final == rest.final;
      assert all == head + rest.tabs;
      forall k | 0 <= k < |all| ensures all[k].StoreLink? && !IsPlaceholder(links) {
        if k < |head| {
          assert all[k] == r.newTab.value;
        } else {
          assert all[k] == rest.tabs[k - |head|];
        }
      }
    }
  }

  /** Placeholder links are never opened in any run from any reachable state. */
  lemma {:induction false} PlaceholderNeverOpened(links: DownloadLinks, s: ButtonState, events: seq<Event>)
    requires IsPlaceholder(links)
    ensures forall k :: 0 <= k < |RunEvents(links, s, events).tabs| ==> RunEvents(links, s, events).tabs[k].CdnLink?
    decreases |events|
  {
    if |events| > 0 {
      var r := Step(links, s, events[0]);
      PlaceholderNeverOpened(links, r.next, events[1..]);
      var head: seq<Target> := if r.newTab.Some? then [r.newTab.value] else [];
      assert RunEvents(links, s, events).tabs == head + RunEvents(links, r.next, events[1..]).tabs;
    }
  }

  /** The first detection always ends loading, whatever its outcome. */
  lemma DetectionEndsLoading(links: DownloadLinks, fetched: GeoFetch, timezone: string)
    ensures var next := Step(links, Initial, RegionDetected(fetched, timezone)).next;
      !next.loading && Reachable(next) && Render(links, next).Buttons?
  {
  }
}

=== FILE: version_display.dfy ===
/** The version label of a product page: shows the configured version, and when a repository is
    configured, fetches the latest release version from `/api/github-version`. */
module VersionDisplay {
  import opened Outcomes
  import GithubVersion

  /** Component props; `defaultVersion` falls back to `latest` only when it is not given. */
  datatype Props = Props(productSlug: string, defaultVersion: Option<string>, githubRepo: Option<string>)

  datatype DisplayState = DisplayState(version: string, includePrerelease: bool, loading: bool, isPrerelease: bool)

  function InitialState(p: Props): (s: DisplayState)
    ensures p.defaultVersion.None? ==> s.version == "latest"
    ensures p.defaultVersion.Some? ==> s.version == p.defaultVersion.value
    ensures !s.includePrerelease && !s.loading && !s.isPrerelease
  {
    DisplayState(p.defaultVersion.GetOr("latest"), false, false, false)
  }

  /** The query string's `includePrerelease=${flag}`: the route reads the text back as the flag. */
  function FlagText(b: bool): (t: string)
    ensures GithubVersion.ParseIncludePrerelease(Some(t)) == b
    ensures t == "true" || t == "false"
  {
    if b then "true" else "false"
  }

  /** The request the effect makes: the repository and the flag as text. */
  datatype VersionRequest = VersionRequest(repo: string, includePrerelease: string)

  datatype EffectStep = EffectStep(next: DisplayState, request: Option<VersionRequest>)

  /** The fetch effect starting (on mount, and again whenever the flag changes). */
  function StartFetch(p: Props, s: DisplayState): (r: EffectStep)
    ensures r.request.Some? <==> Truthy(p.githubRepo)
    ensures r.request.None? ==> r.next == s
    ensures r.request.Some? ==> r.next == s.(loading := true)
    ensures r.request.Some? ==> r.request.value.repo == p.githubRepo.value
    ensures r.request.Some? ==> GithubVersion.ParseIncludePrerelease(Some(r.request.value.includePrerelease)) == s.includePrerelease
  {
    if !Truthy(p.githubRepo) then EffectStep(s, None)
    else EffectStep(s.(loading := true), Some(VersionRequest(p.githubRepo.value, FlagText(s.includePrerelease))))
  }

  /** The ok body's fields the component reads; `isPrerelease` is `None` when absent. */
  datatype VersionPayload = VersionPayload(version: string, isPrerelease: Option<bool>)

  /** The fetch effect finishing. */
  function FinishFetch(s: DisplayState, outcome: Fetch<VersionPayload>): (r: DisplayState)
    ensures !r.loading && r.includePrerelease == s.includePrerelease
    ensures outcome.Ok? ==> r.version == outcome.data.version && (r.isPrerelease <==> outcome.data.isPrerelease == Some(true))
    ensures !outcome.Ok? ==> r.version == s.version && r.isPrerelease == s.isPrerelease
  {
    match outcome
    case Ok(data) => s.(version := data.version, isPrerelease := data.isPrerelease.GetOr(false), loading := false)
    case _ => s.(loading := false)
  }

  /** The checkbox: a change of the flag re-runs the effect with the new flag. */
  function SetIncludePrerelease(p: Props, s: DisplayState, checked: bool): (r: EffectStep)
    ensures r.next.includePrerelease == checked
    ensures checked == s.includePrerelease ==> r == EffectStep(s, None)
    ensures checked != s.includePrerelease && Truthy(p.githubRepo) ==>
      r.request == Some(VersionRequest(p.githubRepo.value, FlagText(checked))) && r.next.loading
  {
    if checked == s.includePrerelease then EffectStep(s, None)
    else StartFetch(p, s.(includePrerelease := checked))
  }

  /** The text after "Version:". */
  function Shown(p: Props, s: DisplayState): (text: string)
    ensures !Truthy(p.githubRepo) ==> text == s.version
    ensures Truthy(p.githubRepo) && s.loading ==> text == "..."
    ensures Truthy(p.githubRepo) && !s.loading ==> text == s.version
  {
    if !Truthy(p.githubRepo) then s.version
    else if s.loading then "..." else s.version
  }

  /** Without a repository nothing is fetched and the default version stays on screen. */
  lemma NoRepositoryKeepsDefault(p: Props)
    requires !Truthy(p.githubRepo)
    ensures StartFetch(p, InitialState(p)).request.None?
    ensures Shown(p, StartFetch(p, InitialState(p)).next) == p.defaultVersion.GetOr("latest")
  {
  }

  /** A failed fetch leaves the version shown before the fetch in place. */
  lemma FailedFetchKeepsVersion(p: Props, s: DisplayState, outcome: Fetch<VersionPayload>)
    requires Truthy(p.githubRepo) && !outcome.Ok? && !s.loading
    ensures Shown(p, FinishFetch(StartFetch(p, s).next, outcome)) == Shown(p, s)
    ensures Shown(p, StartFetch(p, s).next) == "..."
  {
  }
}
